=== FILE: README.md ===
# Kinematics core of a three-joint anthropomorphic arm, in Dafny

This project models three pieces of the arm's control software and proves
their properties.

- **The Denavit-Hartenberg matrix registry** (`DHMatrixGenerator`,
  `src/generate_matrices.py`). It covers:
  - the generic link template;
  - the chain names `A{i}{i+1}` and `A0{k}`;
  - the name-keyed registry of link and compound transforms, including its
    error for undeclared names and its default symbols for omitted DH
    parameters;
  - left-to-right composition of compound transforms;
  - the bookkeeping of simplification.

  Files: `dh_matrices.dfy`, on top of `symbolic.dfy` and `decimal.dfy`.
  `symbolic.dfy` is a small symbolic algebra of constants, symbols, sums,
  products, negation and sin/cos that stands in for sympy; `decimal.dfy`
  renders natural numbers the way an f-string does.
- **The closed-form inverse kinematics** (`inverse_kinematics`,
  `src/ik_antropomorphic_arm.py`). It covers:
  - the two base branches and two elbow signs;
  - the shared `unreachable` flag;
  - sorting the candidates by the joint limits;
  - the four configuration labels.

  File: `ik.dfy`. `sqrt`, `arccos`, `arctan2`, `sin` and `cos` are
  uninterpreted real functions carried in a `Numerics` value. Only where a
  lemma says so is `sqrt(x) * sqrt(x) == x` for `x >= 0` assumed.
- **The end-effector mover's decision logic** (`goal_callback` and
  `position_callback`, `src/antropomorphic_end_effector_mover.py`). Each
  callback is a pure state transition. It returns the new state, the joint
  command it would send and the marker it would publish. On top of that,
  runs over arbitrary message sequences are modelled.

  File: `mover.dfy`.

Python's mutable objects become immutable values threaded through pure
functions:

- The registry is a record of two maps from a name to `None` or a matrix.
- A raised `ValueError` becomes an error value returned alongside the
  registry as it stood when the error was raised.
- A ROS callback becomes a function from state and message to a `Reaction`.

Numbers are Dafny reals. `np.pi` is the shortest decimal that rounds to
numpy's double.

## Behaviour worth knowing

- **Shared `unreachable` flag.** Both base branches write one flag
  (`src/ik_antropomorphic_arm.py:25`, `:35`).
  - Both branches compute `cos_theta3` from `A**2` (`:33`), and
    `(-A) * (-A) == A * A`. So either both branches fail or neither does.
  - The flag is therefore set exactly when no candidate is produced, and
    then both lists are empty (`BranchesShareCosTheta3`, `Solve`).
- **Full reach.** At distance exactly 2, the elbow loop at `:44` still
  emits two candidates per branch. When `arccos(1) == 0` the two coincide,
  so the same solution is reported twice (`FullReachRepeatsCandidates`).
- **Link indices of ten and above.** The default symbols of a link use
  `name[2:]` (`src/generate_matrices.py:55-58`).
  - For `A01`..`A910` this is the index of the link's far frame
    (`DefaultSymbolsOfShortLinks`).
  - From `A1011` on it also keeps one or more digits of the near frame, as
    in `theta_011` (`DefaultSymbolOfLinkTen`).
- **Missing links in a compound.** `build_compound_matrices` silently skips
  a link that is missing or still `None` (`:79-80`). A compound can then be
  the product of fewer links than its name suggests (`CompoundValue`): the
  present links, each of them, in chain order (`FactorsPrefix`,
  `FactorsCollectPresent`).
- **Marker indices overlap.** The constructor's comment calls the actual
  marker index a "separate range"
  (`src/antropomorphic_end_effector_mover.py:18`), but both counters start
  at 0 (`:17-18`).
  - Both markers go through the same `publish_point(x, y, z, index)` call
    (`:77-82`, `:92-97`), which takes no kind.
  - So the first commanded goal and the first position message both publish
    index 0 (`MarkerIndicesCollide`).
  - In the model, a marker's `kind` only records which callback published
    it; the publisher never receives it.
  - Whether such markers replace each other in the viewer depends on
    `MarkerBasics`, which is not part of this model.
- **Default elbow policy.** The constructor's policy `"plus"` (`:29`) is
  none of the four labels the solver produces. It is harmless, because
  every goal message overwrites it before it is used (`:50`): the state
  `GoalDecision` returns holds the message's policy, and the decision is
  the same whatever policy the state held (`GoalIgnoresStoredPolicy`). A
  goal message that itself requests `"plus"` commands nothing
  (`DefaultPolicyMatchesNothing`).

## Model

| member | source | states |
|---|---|---|
| `DHMatrices.GenerateChain` | src/generate_matrices.py:33-40 | the adjacent names `A{i}{i+1}` for i < n in order, then `A0{k}` for k = 2..n; length 2n-1 (0 for n <= 0); no name repeated |
| `DHMatrices.LinkNames` | src/generate_matrices.py:36-37 | the first loop yields exactly the n link names, the i-th being `A{i}{i+1}`; nothing for n <= 0 |
| `DHMatrices.CompoundNames` | src/generate_matrices.py:38-39 | the second loop yields the n-1 compound names `A02`..`A0{n}` in order; nothing for n < 2 |
| `DHMatrices.ChainNamesDistinct` | src/generate_matrices.py:36-39 | any list laid out as link names then compound names has pairwise distinct entries |
| `DHMatrices.LinkNamesDistinct` | src/generate_matrices.py:37 | different link indices give different names `A{i}{i+1}`, even though the two numbers are written without a separator |
| `DHMatrices.CompoundNamesDistinct` | src/generate_matrices.py:39 | different k give different compound names `A0{k}` |
| `DHMatrices.CompoundIsNotLink` | src/generate_matrices.py:36-39 | for k >= 2 no compound name coincides with any link name |
| `Decimal.DigitsInjective` | src/generate_matrices.py:37 | the decimal rendering of a natural number determines it |
| `Decimal.AdjacentPairInjective` | src/generate_matrices.py:37 | the rendering of i followed by that of i+1 determines i |
| `DHMatrices.Instantiate` | src/generate_matrices.py:55-68 | a substituted link has the DH layout in the resolved parameters: bottom row `[0,0,0,1]`, row 2 `[0, sin a, cos a, d]`, column 3 `[r cos t, r sin t, d, 1]` |
| `DHMatrices.SubstTemplate` | src/generate_matrices.py:24-31 | substituting values for the four template symbols turns the template into the DH layout in those values |
| `DHMatrices.InstantiateMeaning` | src/generate_matrices.py:61-68 | every entry of a substituted link evaluates like the template entry with alpha_i, r_i, d_i, theta_i bound to the values of their replacements |
| `Symbolic.SubstSound` | src/generate_matrices.py:68 | substitution commutes with evaluation: evaluating the substituted expression equals evaluating the original in the extended environment |
| `DHMatrices.DefaultSymbolsOfShortLinks` | src/generate_matrices.py:55-58 | for the first ten links (`A01`..`A910`) an omitted parameter defaults to the symbol `<param>_{i+1}` |
| `DHMatrices.DefaultSymbolOfLinkTen` | src/generate_matrices.py:55-58 | for link `A1011` the default symbol is `<param>_011`, because `name[2:]` keeps three characters |
| `DHMatrices.CreateMatrices` | src/generate_matrices.py:42-46 | every listed name maps to `None` in both dictionaries; every other entry, and the key sets outside the list, are unchanged |
| `DHMatrices.CreateOnFreshRegistry` | src/generate_matrices.py:13-14 | on a fresh generator (both dictionaries empty), `create_matrices` registers exactly the listed names, each with `None`, and the two dictionaries are equal |
| `DHMatrices.ApplySubstitutions` | src/generate_matrices.py:48-68 | the call fails exactly when some listed name is unregistered, and it names the first such entry; keys and `simplified` never change |
| `DHMatrices.SubstitutionsInstantiate` | src/generate_matrices.py:50-68 | on success each name holds the instantiation of the last entry for it |
| `DHMatrices.SubstitutionsLeaveOthers` | src/generate_matrices.py:50-68 | a registered name that no entry mentions keeps its matrix |
| `DHMatrices.FailureKeepsEarlierUpdates` | src/generate_matrices.py:50-52 | the error is not atomic: the registry left after failing at entry i is exactly the one entries 0..i-1 produce on their own |
| `DHMatrices.SubstitutionsKeepHomogeneous` | src/generate_matrices.py:68 | if every stored matrix has bottom row `[0,0,0,1]`, it still holds after substitution |
| `DHMatrices.Factors` | src/generate_matrices.py:76-80 | no factor is collected exactly when none of the links before k is registered with a matrix |
| `DHMatrices.FactorsComeFromLinks` | src/generate_matrices.py:77-80 | every collected factor is the stored matrix of some link `A{j}{j+1}` with j < k |
| `DHMatrices.FactorsPrefix` | src/generate_matrices.py:77-80 | the factors of the links before j are the start of the factors of the links before any k >= j |
| `DHMatrices.FactorsCollectPresent` | src/generate_matrices.py:77-80 | every registered non-`None` link j < k is collected, placed right after the factors of the links before it, so gaps keep chain order |
| `DHMatrices.FactorsOfCompleteChain` | src/generate_matrices.py:77-80 | with all links up to k present, the factors are exactly those k link matrices in chain order |
| `DHMatrices.BuildFromCompound` | src/generate_matrices.py:72-83 | each registered compound in the loop's range ends up with the value read off the starting registry, unaffected by compounds written earlier |
| `DHMatrices.BuildCompound` | src/generate_matrices.py:70-83 | for each registered `A0{k}`, 2 <= k <= n: the left-to-right product of the present links before k, or unchanged when there are none; nothing else changes and no name is created |
| `DHMatrices.BuildKeepsLinks` | src/generate_matrices.py:72-83 | composition never touches a link matrix |
| `DHMatrices.CompoundRecurrence` | src/generate_matrices.py:77-83 | with a complete chain, `A0k == A0(k-1) * A(k-1)k` for every k >= 2, where for k = 2 the name `A01` is the first link itself |
| `Symbolic.MatMul` | src/generate_matrices.py:83 | every entry of the symbolic product evaluates to the row-by-column sum of the factors' values; a product of homogeneous matrices is homogeneous |
| `Symbolic.ProductHomogeneous` | src/generate_matrices.py:83 | the product of a non-empty list of matrices with bottom row `[0,0,0,1]` keeps that row |
| `Symbolic.ProductSnoc` | src/generate_matrices.py:83 | appending a factor multiplies it on the right of the running product |
| `DHMatrices.CompositionKeepsHomogeneous` | src/generate_matrices.py:72-83 | if every stored matrix is homogeneous, so is every matrix after composition |
| `DHMatrices.SimplifyMatrices` | src/generate_matrices.py:85-89 | `simplified[x]` is written exactly for listed names registered with a matrix, holding the simplifier's output; `matrices` is never modified; other entries are unchanged |
| `DHMatrices.SimplifiedAgrees` | src/generate_matrices.py:85-89 | with a value-preserving simplifier, each simplified entry evaluates like its source matrix |
| `InverseKinematics.BranchesShareCosTheta3` | src/ik_antropomorphic_arm.py:28-36 | `cos_theta3` is the same for `A_sign = +1` and `-1`, so both branches are reachable or neither is |
| `InverseKinematics.BaseAngle` | src/ik_antropomorphic_arm.py:39-41 | the positive branch uses `arctan2(py, px)`; the negative branch's angle differs from it by exactly pi in magnitude |
| `InverseKinematics.LabelExhaustive` | src/ik_antropomorphic_arm.py:54-55 | every label is one of the four configurations, and each label appears exactly for its sign combination, zero counting as minus |
| `InverseKinematics.Solve` | src/ik_antropomorphic_arm.py:5-69 | unreachable exactly when `abs(cos_theta3) > 1`, and then both lists are empty; otherwise four candidates in loop order, sorted by the limit check with limits on, all in `valid` with limits off |
| `InverseKinematics.SolveSorted` | src/ik_antropomorphic_arm.py:50-65 | with limits on, every `valid` entry is within the joint limits and every `invalid` entry is not |
| `InverseKinematics.SolveLabelled` | src/ik_antropomorphic_arm.py:54-57 | every reported candidate carries one of the four configuration labels |
| `InverseKinematics.CandidatesLabelled` | src/ik_antropomorphic_arm.py:54-57 | each of the four raw candidates is labelled with a configuration |
| `InverseKinematics.ReachableEnumeration` | src/ik_antropomorphic_arm.py:28-67 | when reachable, the nested loops produce the reference candidate list (A+,+acos), (A+,-acos), (A-,+acos), (A-,-acos), sorted or not by the limit check |
| `InverseKinematics.TwoBranches` | src/ik_antropomorphic_arm.py:28 | the outer loop runs the positive branch, then the negative one |
| `InverseKinematics.FilingTwice` | src/ik_antropomorphic_arm.py:44-67 | filing two candidate lists one after the other files their concatenation |
| `InverseKinematics.FileSelects` | src/ik_antropomorphic_arm.py:59-65 | with limits on, the inner loop appends the in-limit candidates to `valid` and the others to `invalid`, each in order |
| `InverseKinematics.FileKeepsAll` | src/ik_antropomorphic_arm.py:66-67 | with limits off, the inner loop appends every candidate to `valid` |
| `InverseKinematics.RecordSelects` | src/ik_antropomorphic_arm.py:59-65 | filing a single candidate with limits on puts it on the side its limit check says |
| `InverseKinematics.KeepMembers` | src/ik_antropomorphic_arm.py:59-65 | a candidate is in the chosen side exactly when it is a candidate and its limit check gives that side |
| `InverseKinematics.KeepPartitions` | src/ik_antropomorphic_arm.py:59-67 | as multisets the two sides together are the candidate list: nothing lost, nothing duplicated |
| `InverseKinematics.KeepSizes` | src/ik_antropomorphic_arm.py:59-67 | the two sides' lengths add up to the number of candidates |
| `InverseKinematics.KeepAppend` | src/ik_antropomorphic_arm.py:59-65 | sorting a concatenation is the concatenation of the sorted parts |
| `InverseKinematics.LimitsOffIsUnion` | src/ik_antropomorphic_arm.py:59-67 | limits off gives the same reachability, an empty `invalid`, and a `valid` equal as a multiset to the limits-on `valid ++ invalid` |
| `InverseKinematics.CandidatePairs` | src/ik_antropomorphic_arm.py:39-44 | within a branch the two candidates share theta1 and have opposite theta3; the branches' theta1 differ by pi in magnitude |
| `InverseKinematics.UnreachableBeyondFullReach` | src/ik_antropomorphic_arm.py:29-36 | with an exact square root the target is unreachable exactly when its squared distance exceeds 4 |
| `InverseKinematics.FullReachRepeatsCandidates` | src/ik_antropomorphic_arm.py:44 | at distance exactly 2, four candidates are still reported, each branch's two being the same solution |
| `InverseKinematics.DemoTargetHasFourCandidates` | src/ik_antropomorphic_arm.py:74-75 | the demonstration target (0.5, 0.6, 0.7) is reachable and yields four candidates |
| `InverseKinematics.FarTargetYieldsNothing` | src/ik_antropomorphic_arm.py:33-36 | the target (3, 0, 3) is flagged unreachable and yields no candidate |
| `EndEffectorMover.InitialState` | src/antropomorphic_end_effector_mover.py:17-29 | the values the constructor assigns: both marker counters zero, no goal or position, and a default policy that is not a configuration label |
| `EndEffectorMover.FirstMatching` | src/antropomorphic_end_effector_mover.py:65-70 | a returned position holds a solution with the requested label |
| `EndEffectorMover.FirstMatchingIsFirst` | src/antropomorphic_end_effector_mover.py:65-70 | no earlier solution matches, and nothing found means no solution matches |
| `EndEffectorMover.GoalDecision` | src/antropomorphic_end_effector_mover.py:47-85 | goal and policy are always stored; a command and a goal marker with the old index go together; the goal index advances by one exactly then; unreachable means no command; the position side is untouched |
| `EndEffectorMover.DecisionPicksFirstMatch` | src/antropomorphic_end_effector_mover.py:64-85 | a command is sent exactly when the answer is reachable and some `valid` solution has the requested label, and it is the first such solution's joint triple |
| `EndEffectorMover.DecisionWithinLimits` | src/antropomorphic_end_effector_mover.py:66-74 | if every `valid` answer respects the limits, so does the command |
| `EndEffectorMover.DecisionNeedsLabel` | src/antropomorphic_end_effector_mover.py:66-70 | if every `valid` answer carries a configuration label, a policy that is no label commands nothing |
| `EndEffectorMover.GoalCallback` | src/antropomorphic_end_effector_mover.py:53-62 | the solver is asked with limits on; no command for an unreachable target or for a policy that is no label; every command is within the joint limits, so no `invalid` candidate is ever commanded |
| `EndEffectorMover.PositionCallback` | src/antropomorphic_end_effector_mover.py:87-98 | the position is stored and an actual marker with the old index is published; the actual index advances by one whatever the goal state; nothing is commanded and the goal side is untouched |
| `EndEffectorMover.Step` | src/antropomorphic_end_effector_mover.py:47-98 | one callback numbers at most one goal marker, with the goal index it found, and one actual marker per position message, with the actual index it found |
| `EndEffectorMover.RunGoalMarkers` | src/antropomorphic_end_effector_mover.py:76-83 | over any run of messages the goal markers carry consecutive indices from the starting index, one per command, and the counter ends past them |
| `EndEffectorMover.RunActualCount` | src/antropomorphic_end_effector_mover.py:98 | over any run the actual counter advances by the number of position messages |
| `EndEffectorMover.RunActualIndices` | src/antropomorphic_end_effector_mover.py:92-98 | over any run the actual markers carry consecutive indices from the starting index, one per position message |
| `EndEffectorMover.MarkerIndicesCollide` | src/antropomorphic_end_effector_mover.py:17-18 | both counters start at 0, so a commanded goal followed by a position message publishes two markers with index 0 |
| `EndEffectorMover.ConsecutiveEntries` | src/antropomorphic_end_effector_mover.py:83 | a block of consecutive indices has the stated length and its i-th entry is start + i, so no index repeats |
| `EndEffectorMover.SolverRespectsLimits` | src/antropomorphic_end_effector_mover.py:53-58 | the solver as the node calls it, with limits on, only returns in-limit `valid` solutions |
| `EndEffectorMover.StepIsCallback` | src/antropomorphic_end_effector_mover.py:36-39 | a goal message in a run is handled by exactly `goal_callback` |
| `EndEffectorMover.StepWithinLimits` | src/antropomorphic_end_effector_mover.py:66-74 | with a limit-respecting solver, no single callback commands anything outside the limits |
| `EndEffectorMover.RunCommandsWithinLimits` | src/antropomorphic_end_effector_mover.py:72-74 | with a limit-respecting solver, every command of any run respects the joint limits |
| `EndEffectorMover.GoalIgnoresStoredPolicy` | src/antropomorphic_end_effector_mover.py:50 | the policy stored in the state is overwritten by the message's before it is read: a goal's decision does not depend on it |
| `EndEffectorMover.DefaultPolicyMatchesNothing` | src/antropomorphic_end_effector_mover.py:29 | a goal message requesting `"plus"` commands nothing, since `"plus"` is none of the four labels |

## Left out

- Numeric values of `sqrt`, `arccos`, `arctan2`, `sin` and `cos` are left
  uninterpreted. Floating-point rounding is not modelled (reals are exact),
  so FK(IK(p)) = p and trigonometric identities are not stated.
- `InverseKinematics.UnreachableBeyondFullReach` (and the demo-target lemmas
  built on it) assumes a square root that squares back exactly, which a
  floating-point `sqrt` only approximates.
- The sympy `simplify` of the template (`src/generate_matrices.py:24`) is
  not applied. The template is kept exactly as written, since simplifying it
  changes no value.
- `trigsimp` in `simplify_matrices` is a parameter `simp` of
  `SimplifyMatrices`, because it is a foreign computer-algebra routine.
- sympy's automatic evaluation of `sin`/`cos` at numeric arguments, such as
  `cos(pi/2) == 0`, is not performed. Substituted matrices agree with
  sympy's in value, not in syntax.
- `.subs` with a dictionary is modelled as simultaneous substitution. The
  two agree whenever the substituted values do not mention the template
  symbols, as with the default symbols and numbers.
- The substitutions dictionary is a list of (name, parameters) pairs in
  iteration order. A Python dict cannot repeat a name, while the list may;
  the model handles repeats (the last entry wins).
- `save_matrices`, `preview` and `init_printing` are file and console
  output, and are left out. So are the `main` functions and the printed IK
  demonstration.
- `src/fk_antropomorphic_arm.py` is not part of this model. It is an
  interactive script. It calls `save_matrices` with a `postfix` keyword
  that the method (`src/generate_matrices.py:91`) does not accept, and then
  `get_matrix`, which does not exist.
- ROS plumbing is left out: node initialisation, subscribers,
  `wait_for_message`, the rate loop, `JointMover` (a command is returned
  instead of sent), `MarkerBasics` (a marker value is returned instead of
  published), logging, and the position-error norm (it is only logged).
- `EndEffectorMover.InitialState` is the set of values the constructor
  assigns, not necessarily the state at the end of construction.
  `__init__` subscribes and blocks in `wait_for_message` (`:24`, `:36-44`)
  before it assigns `current_goal`, `current_position` and `elbow_config`
  (`:27-29`).
  - Callbacks that run during those waits can leave non-zero counters.
  - Their goal is then reset to `None` and their policy to `"plus"`.
  - A position callback that runs before any goal callback and before
    `:27` raises `AttributeError` at `:101`, after updating the state at
    `:89-98`; `current_goal` is first assigned by a goal callback (`:49`).

  This initialisation order is not modelled.
- Non-finite inputs are not modelled, since Dafny reals have no NaN or
  infinity. With a NaN coordinate, `abs(cos_theta3) > 1` is false
  (`src/ik_antropomorphic_arm.py:34`). The solver then reports the target
  reachable, with four NaN candidates labelled `"minus-minus"`: all
  `invalid` with limits on, all `valid` with limits off.
- The callbacks are modelled as running one at a time. ROS may run them on
  separate threads; that concurrency is not modelled.

=== FILE: decimal.dfy ===
/**
 * Decimal rendering of natural numbers, as Python's f-string `{i}` writes an
 * `int`. The chain names `A{i}{i+1}` and `A0{k}` are built from it, so the
 * facts proved here (one rendering per number, no leading zero, how the
 * length grows) are what make the generated names pairwise distinct.
 */
module Decimal {

  function DigitChar(d: nat): (c: char)
    requires d < 10
    ensures '0' <= c <= '9'
  {
    ('0' as int + d) as char
  }

  /** The shortest base-10 rendering of `n`, most significant digit first. */
  function Digits(n: nat): (s: string)
    ensures |s| >= 1
    ensures n < 10 <==> |s| == 1
    ensures forall i :: 0 <= i < |s| ==> '0' <= s[i] <= '9'
    decreases n
  {
    if n < 10 then [DigitChar(n)] else Digits(n / 10) + [DigitChar(n % 10)]
  }

  /** Only zero is rendered starting with the digit `0`. */
  lemma {:induction false} LeadingDigit(n: nat)
    ensures Digits(n)[0] == '0' <==> n == 0
    decreases n
  {
    if n >= 10 {
      LeadingDigit(n / 10);
    }
  }

  /** Rendering is injective: two numbers with the same digits are equal. */
  lemma {:induction false} DigitsInjective(n: nat, m: nat)
    requires Digits(n) == Digits(m)
    ensures n == m
    decreases n
  {
    if n >= 10 && m >= 10 {
      var s := Digits(n);
      assert s == Digits(n / 10) + [DigitChar(n % 10)];
      assert s == Digits(m / 10) + [DigitChar(m % 10)];
      assert Digits(n / 10) == s[..|s| - 1] == Digits(m / 10);
      DigitsInjective(n / 10, m / 10);
      assert DigitChar(n % 10) == s[|s| - 1] == DigitChar(m % 10);
    }
  }

  /** A larger number never has fewer digits. */
  lemma {:induction false} LengthMonotone(n: nat, m: nat)
    requires n <= m
    ensures |Digits(n)| <= |Digits(m)|
    decreases m
  {
    if n >= 10 {
      LengthMonotone(n / 10, m / 10);
    }
  }

  /** Adding one adds at most one digit. */
  lemma LengthOfSuccessor(n: nat)
    ensures |Digits(n)| <= |Digits(n + 1)| <= |Digits(n)| + 1
  {
    LengthMonotone(n, n + 1);
    if n > 0 {
      assert (10 * n) / 10 == n;
      assert |Digits(10 * n)| == |Digits(n)| + 1;
      LengthMonotone(n + 1, 10 * n);
    }
  }

  /**
   * The rendering of `i` followed by that of `i + 1` determines `i`: the
   * juxtaposition carries no separator, yet two different indices never
   * produce the same string.
   */
  lemma AdjacentPairInjective(i: nat, j: nat)
    requires Digits(i) + Digits(i + 1) == Digits(j) + Digits(j + 1)
    ensures i == j
  {
    if i < j {
      AdjacentPairOrdered(i, j);
    } else if j < i {
      AdjacentPairOrdered(j, i);
    }
  }

  lemma AdjacentPairOrdered(i: nat, j: nat)
    requires i < j
    ensures Digits(i) + Digits(i + 1) != Digits(j) + Digits(j + 1)
  {
    var a, b := Digits(i), Digits(j);
    LengthMonotone(i, j);
    LengthOfSuccessor(i);
    LengthMonotone(j, j + 1);
    if |a| == |b| {
      if Digits(i) + Digits(i + 1) == Digits(j) + Digits(j + 1) {
        assert (a + Digits(i + 1))[..|a|] == a;
        assert (b + Digits(j + 1))[..|b|] == b;
        DigitsInjective(i, j);
      }
    } else {
      assert |a + Digits(i + 1)| < |b + Digits(j + 1)|;
    }
  }
}

=== FILE: dh_matrices.dfy ===
/**
 * The Denavit-Hartenberg matrix registry of `DHMatrixGenerator`: the generic
 * link template, the chain-name generator, the name-keyed registry of link
 * and compound transforms (with its fail-fast error for undeclared names),
 * compound composition, and the bookkeeping of simplification.
 *
 * Python's mutable object becomes an immutable `Registry` value threaded
 * through pure functions. Both dictionaries map a name to `None` or a
 * matrix, as in the source.
 */
module DHMatrices {
  import opened Wrappers
  import opened Decimal
  import opened Symbolic

  // ---------------------------------------------------------------------
  // Chain names

  /** The transform from frame i to frame i+1, `A{i}{i+1}`. */
  function LinkName(i: nat): string {
    "A" + (Digits(i) + Digits(i + 1))
  }

  /** The compound transform from the base to frame k, `A0{k}`. */
  function CompoundName(k: nat): string {
    "A0" + Digits(k)
  }

  lemma LinkNamesDistinct(i: nat, j: nat)
    requires i != j
    ensures LinkName(i) != LinkName(j)
  {
    if LinkName(i) == LinkName(j) {
      assert LinkName(i)[1..] == Digits(i) + Digits(i + 1);
      assert LinkName(j)[1..] == Digits(j) + Digits(j + 1);
      AdjacentPairInjective(i, j);
    }
  }

  lemma CompoundNamesDistinct(k: nat, l: nat)
    requires k != l
    ensures CompoundName(k) != CompoundName(l)
  {
    if CompoundName(k) == CompoundName(l) {
      assert CompoundName(k)[2..] == Digits(k);
      assert CompoundName(l)[2..] == Digits(l);
      DigitsInjective(k, l);
    }
  }

  /**
   * `A0{k}` for k >= 2 is never a link name: a link name continues after the
   * `A` with the digits of i, which start with `0` only for i = 0, and
   * `A01` would need k = 1.
   */
  lemma CompoundIsNotLink(k: nat, i: nat)
    requires k >= 2
    ensures CompoundName(k) != LinkName(i)
  {
    if CompoundName(k) == LinkName(i) {
      LeadingDigit(i);
      assert LinkName(i)[1] == Digits(i)[0];
      assert CompoundName(k)[1] == '0';
      assert i == 0;
      assert CompoundName(k)[2..] == Digits(k);
      assert LinkName(0)[2..] == Digits(1);
      DigitsInjective(k, 1);
    }
  }

  /**
   * `generate_chain`: the adjacent names `A{i}{i+1}` for i = 0..n-1, then
   * the compound names `A0{k}` for k = 2..n, with no name repeated. A
   * non-positive length gives the empty list, as Python's `range` does.
   */
  method GenerateChain(n: int) returns (names: seq<string>)
    ensures |names| == if n <= 0 then 0 else 2 * n - 1
    ensures forall i :: 0 <= i < n ==> names[i] == LinkName(i)
    ensures forall k :: 2 <= k <= n ==> names[n + k - 2] == CompoundName(k)
    ensures forall p, q :: 0 <= p < q < |names| ==> names[p] != names[q]
  {
    var links := LinkNames(n);
    var compounds := CompoundNames(n);
    names := links + compounds;
    assert forall i :: 0 <= i < |links| ==> names[i] == links[i];
    assert forall l :: 0 <= l < |compounds| ==> names[|links| + l] == compounds[l];
    ChainNamesDistinct(names, n);
  }

  /** The first loop of `generate_chain`: `A{i}{i+1}` for i = 0..n-1. */
  method LinkNames(n: int) returns (names: seq<string>)
    ensures |names| == if n <= 0 then 0 else n
    ensures forall i :: 0 <= i < |names| ==> names[i] == LinkName(i)
  {
    names := [];
    var i := 0;
    while i < n
      invariant 0 <= i <= (if n < 0 then 0 else n)
      invariant |names| == i
      invariant forall p :: 0 <= p < i ==> names[p] == LinkName(p)
    {
      names := names + [LinkName(i)];
      i := i + 1;
    }
  }

  /** The second loop of `generate_chain`: `A0{k}` for k = 2..n. */
  method CompoundNames(n: int) returns (names: seq<string>)
    ensures |names| == if n < 2 then 0 else n - 1
    ensures forall l :: 0 <= l < |names| ==> names[l] == CompoundName(l + 2)
  {
    names := [];
    var k := 2;
    while k <= n
      invariant 2 <= k <= (if n < 2 then 2 else n + 1)
      invariant |names| == k - 2
      invariant forall l :: 0 <= l < k - 2 ==> names[l] == CompoundName(l + 2)
    {
      names := names + [CompoundName(k)];
      k := k + 1;
    }
  }

  lemma ChainNamesDistinct(names: seq<string>, n: int)
    requires |names| == if n <= 0 then 0 else 2 * n - 1
    requires forall i :: 0 <= i < n ==> names[i] == LinkName(i)
    requires forall k :: 2 <= k <= n ==> names[n + k - 2] == CompoundName(k)
    ensures forall p, q :: 0 <= p < q < |names| ==> names[p] != names[q]
  {
    forall p, q | 0 <= p < q < |names|
      ensures names[p] != names[q]
    {
      if q < n {
        LinkNamesDistinct(p, q);
      } else if p < n {
        assert names[q] == CompoundName(q - n + 2);
        CompoundIsNotLink(q - n + 2, p);
      } else {
        assert names[p] == CompoundName(p - n + 2);
        assert names[q] == CompoundName(q - n + 2);
        CompoundNamesDistinct(p - n + 2, q - n + 2);
      }
    }
  }

  // ---------------------------------------------------------------------
  // The generic link template and its instantiation

  function Theta(): Expr { Var("theta_i") }
  function Alpha(): Expr { Var("alpha_i") }
  function Radius(): Expr { Var("r_i") }
  function Offset(): Expr { Var("d_i") }

  /** The standard DH link transform over the template symbols, built once. */
  function GenericMatrix(): Matrix {
    [ Row(Cos(Theta()), Mul(Neg(Sin(Theta())), Cos(Alpha())), Mul(Sin(Theta()), Sin(Alpha())), Mul(Radius(), Cos(Theta()))),
      Row(Sin(Theta()), Mul(Cos(Theta()), Cos(Alpha())), Mul(Neg(Cos(Theta())), Sin(Alpha())), Mul(Radius(), Sin(Theta()))),
      Row(Const(0.0), Sin(Alpha()), Cos(Alpha()), Offset()),
      BottomRow() ]
  }

  /**
   * The DH layout written out for given parameters: rotation about z by
   * theta, translation d along z, translation r along x, rotation about x
   * by alpha.
   */
  function LinkMatrix(alpha: Expr, r: Expr, d: Expr, theta: Expr): Matrix {
    [ Row(Cos(theta), Times(Negate(Sin(theta)), Cos(alpha)), Times(Sin(theta), Sin(alpha)), Times(r, Cos(theta))),
      Row(Sin(theta), Times(Cos(theta), Cos(alpha)), Times(Negate(Cos(theta)), Sin(alpha)), Times(r, Sin(theta))),
      Row(Const(0.0), Sin(alpha), Cos(alpha), d),
      BottomRow() ]
  }

  /** The DH parameters supplied for one link; an absent one takes its default symbol. */
  datatype LinkParams = LinkParams(alpha: Option<Expr>, r: Option<Expr>, d: Option<Expr>, theta: Option<Expr>)

  /** Python's `name[2:]`, which is empty for names shorter than two characters. */
  function Suffix(name: string): string {
    if |name| >= 2 then name[2..] else ""
  }

  /** The symbol an omitted parameter defaults to: `<param>_` followed by `name[2:]`. */
  function DefaultSymbol(param: string, name: string): Expr {
    Var(param + "_" + Suffix(name))
  }

  function Resolve(given: Option<Expr>, param: string, name: string): Expr {
    given.GetOr(DefaultSymbol(param, name))
  }

  function Bindings(name: string, p: LinkParams): map<string, Expr> {
    map["alpha_i" := Resolve(p.alpha, "alpha", name),
        "r_i" := Resolve(p.r, "r", name),
        "d_i" := Resolve(p.d, "d", name),
        "theta_i" := Resolve(p.theta, "theta", name)]
  }

  function SubstMatrix(m: Matrix, b: map<string, Expr>): Matrix {
    seq(4, i requires 0 <= i < 4 => seq(4, j requires 0 <= j < 4 => Subst(m[i][j], b)))
  }

  /**
   * The matrix `apply_substitutions` stores for `name`: the template with
   * each of alpha, r, d, theta replaced by the supplied value, or by its
   * default symbol when omitted. It has the DH layout in those four values,
   * and so the homogeneous bottom row `[0, 0, 0, 1]`, the row
   * `[0, sin alpha, cos alpha, d]` and the column
   * `[r cos theta, r sin theta, d, 1]`.
   */
  function Instantiate(name: string, p: LinkParams): (m: Matrix)
    ensures m == LinkMatrix(Resolve(p.alpha, "alpha", name), Resolve(p.r, "r", name),
                            Resolve(p.d, "d", name), Resolve(p.theta, "theta", name))
    ensures Homogeneous(m)
    ensures m[2] == Row(Const(0.0), Sin(Resolve(p.alpha, "alpha", name)), Cos(Resolve(p.alpha, "alpha", name)), Resolve(p.d, "d", name))
    ensures m[0][3] == Times(Resolve(p.r, "r", name), Cos(Resolve(p.theta, "theta", name)))
    ensures m[1][3] == Times(Resolve(p.r, "r", name), Sin(Resolve(p.theta, "theta", name)))
  {
    var b := Bindings(name, p);
    assert b["theta_i"] == Resolve(p.theta, "theta", name);
    assert b["alpha_i"] == Resolve(p.alpha, "alpha", name);
    assert b["r_i"] == Resolve(p.r, "r", name);
    assert b["d_i"] == Resolve(p.d, "d", name);
    SubstTemplate(b);
    SubstMatrix(GenericMatrix(), b)
  }

  /** Substituting into the template gives the DH layout in the bound values. */
  lemma SubstTemplate(b: map<string, Expr>)
    requires "theta_i" in b && "alpha_i" in b && "r_i" in b && "d_i" in b
    ensures SubstMatrix(GenericMatrix(), b) == LinkMatrix(b["alpha_i"], b["r_i"], b["d_i"], b["theta_i"])
  {
    var m := SubstMatrix(GenericMatrix(), b);
    var t, a, r, d := b["theta_i"], b["alpha_i"], b["r_i"], b["d_i"];
    TemplateEntries(b);
    assert m[0] == Row(Cos(t), Times(Negate(Sin(t)), Cos(a)), Times(Sin(t), Sin(a)), Times(r, Cos(t)));
    assert m[1] == Row(Sin(t), Times(Cos(t), Cos(a)), Times(Negate(Cos(t)), Sin(a)), Times(r, Sin(t)));
    assert m[2] == Row(Const(0.0), Sin(a), Cos(a), d);
    assert m[3] == BottomRow();
  }

  lemma TemplateEntries(b: map<string, Expr>)
    requires "theta_i" in b && "alpha_i" in b && "r_i" in b && "d_i" in b
    ensures Subst(Theta(), b) == b["theta_i"] && Subst(Alpha(), b) == b["alpha_i"]
    ensures Subst(Radius(), b) == b["r_i"] && Subst(Offset(), b) == b["d_i"]
    ensures Subst(Mul(Neg(Sin(Theta())), Cos(Alpha())), b) == Times(Negate(Sin(b["theta_i"])), Cos(b["alpha_i"]))
    ensures Subst(Mul(Neg(Cos(Theta())), Sin(Alpha())), b) == Times(Negate(Cos(b["theta_i"])), Sin(b["alpha_i"]))
    ensures Subst(Mul(Sin(Theta()), Sin(Alpha())), b) == Times(Sin(b["theta_i"]), Sin(b["alpha_i"]))
    ensures Subst(Mul(Cos(Theta()), Cos(Alpha())), b) == Times(Cos(b["theta_i"]), Cos(b["alpha_i"]))
    ensures Subst(Mul(Radius(), Cos(Theta())), b) == Times(b["r_i"], Cos(b["theta_i"]))
    ensures Subst(Mul(Radius(), Sin(Theta())), b) == Times(b["r_i"], Sin(b["theta_i"]))
  {
    assert Subst(Sin(Theta()), b) == Sin(b["theta_i"]);
    assert Subst(Cos(Theta()), b) == Cos(b["theta_i"]);
    assert Subst(Sin(Alpha()), b) == Sin(b["alpha_i"]);
    assert Subst(Cos(Alpha()), b) == Cos(b["alpha_i"]);
    assert Subst(Neg(Sin(Theta())), b) == Negate(Sin(b["theta_i"]));
    assert Subst(Neg(Cos(Theta())), b) == Negate(Cos(b["theta_i"]));
  }

  /** Instantiating evaluates like the template with the four template symbols bound. */
  lemma InstantiateMeaning(name: string, p: LinkParams, env: Interp, i: nat, j: nat)
    requires i < 4 && j < 4
    ensures Eval(Instantiate(name, p)[i][j], env) == Eval(GenericMatrix()[i][j], Extend(env, Bindings(name, p)))
  {
    assert Instantiate(name, p)[i][j] == Subst(GenericMatrix()[i][j], Bindings(name, p));
    SubstSound(GenericMatrix()[i][j], Bindings(name, p), env);
  }

  /** For the first ten links the defaults are numbered by the link's far frame: `theta_1` for `A01`, `theta_10` for `A910`. */
  lemma DefaultSymbolsOfShortLinks(i: nat, param: string)
    requires i < 10
    ensures DefaultSymbol(param, LinkName(i)) == Var(param + "_" + Digits(i + 1))
  {
    assert |Digits(i)| == 1;
    assert LinkName(i)[2..] == Digits(i + 1);
  }

  /**
   * From link 10 on, `name[2:]` also keeps one or more digits of i: the
   * default joint angle of `A1011` is `theta_011`, not `theta_11`.
   */
  lemma DefaultSymbolOfLinkTen(param: string)
    ensures DefaultSymbol(param, LinkName(10)) == Var(param + "_011")
  {
    assert Digits(10) == "10" && Digits(11) == "11";
    assert LinkName(10) == "A1011";
  }

  // ---------------------------------------------------------------------
  // The registry

  /** `matrices` and `simplified_matrices`: each maps a registered name to `None` or a matrix. */
  datatype Registry = Registry(matrices: map<string, Option<Matrix>>, simplified: map<string, Option<Matrix>>)

  /** A freshly constructed generator has registered nothing. */
  function EmptyRegistry(): Registry {
    Registry(map[], map[])
  }

  /**
   * A fresh generator after `create_matrices`: exactly the listed names
   * are registered, each with `None`, in both dictionaries.
   */
  lemma CreateOnFreshRegistry(names: seq<string>)
    ensures CreateMatrices(EmptyRegistry(), names).matrices.Keys == set x | x in names
    ensures CreateMatrices(EmptyRegistry(), names).simplified.Keys == set x | x in names
    ensures forall x :: x in names ==> CreateMatrices(EmptyRegistry(), names).matrices[x] == None
    ensures CreateMatrices(EmptyRegistry(), names).matrices == CreateMatrices(EmptyRegistry(), names).simplified
  {
  }

  /** Every matrix present in `matrices` has the homogeneous bottom row. */
  predicate AllHomogeneous(reg: Registry) {
    forall x :: x in reg.matrices && reg.matrices[x].Some? ==> Homogeneous(reg.matrices[x].value)
  }

  /**
   * `create_matrices`: registers every listed name with `None` in both
   * dictionaries, overwriting an earlier entry, and leaves every other
   * entry as it was.
   */
  function CreateMatrices(reg: Registry, names: seq<string>): (r: Registry)
    ensures forall x :: x in r.matrices <==> x in reg.matrices || x in names
    ensures forall x :: x in r.simplified <==> x in reg.simplified || x in names
    ensures forall x :: x in names ==> r.matrices[x] == None && r.simplified[x] == None
    ensures forall x :: x in reg.matrices && x !in names ==> r.matrices[x] == reg.matrices[x]
    ensures forall x :: x in reg.simplified && x !in names ==> r.simplified[x] == reg.simplified[x]
    decreases |names|
  {
    if |names| == 0 then reg
    else
      var next := Registry(reg.matrices[names[0] := None], reg.simplified[names[0] := None]);
      var r := CreateMatrices(next, names[1..]);
      assert forall x :: x in names <==> x == names[0] || x in names[1..];
      r
  }

  /** The error `apply_substitutions` raises for a name that was never registered. */
  datatype ConfigError = NotInitialized(name: string)

  /**
   * The outcome of `apply_substitutions`: the registry as it stands when
   * the call returns or raises (updates made before the error stay), and
   * the error, if one was raised.
   */
  datatype Applied = Applied(registry: Registry, failure: Option<ConfigError>)

  /** Every name in `subs[..upto]` is registered in `reg`. */
  predicate AllRegistered(reg: Registry, subs: seq<(string, LinkParams)>, upto: nat)
    requires upto <= |subs|
  {
    forall i :: 0 <= i < upto ==> subs[i].0 in reg.matrices
  }

  /**
   * The position of the first entry whose name is not in `keys`, or
   * `|subs|` when every name is.
   */
  function FirstMissing(keys: set<string>, subs: seq<(string, LinkParams)>): (i: nat)
    ensures i <= |subs|
    ensures forall j :: 0 <= j < i ==> subs[j].0 in keys
    ensures i < |subs| ==> subs[i].0 !in keys
  {
    if |subs| == 0 || subs[0].0 !in keys then 0 else 1 + FirstMissing(keys, subs[1..])
  }

  /** The entry at `i` is the last one for its name. */
  predicate LastFor(subs: seq<(string, LinkParams)>, i: nat)
    requires i < |subs|
  {
    forall j :: i < j < |subs| ==> subs[j].0 != subs[i].0
  }

  /**
   * `apply_substitutions`, in dictionary order. It stops at the first name
   * that is not registered in `matrices` and reports it; every name before
   * it has already been instantiated. Nothing but the `matrices` values of
   * the processed names changes.
   */
  function ApplySubstitutions(reg: Registry, subs: seq<(string, LinkParams)>): (out: Applied)
    ensures out.registry.simplified == reg.simplified
    ensures out.registry.matrices.Keys == reg.matrices.Keys
    ensures out.failure.None? <==> AllRegistered(reg, subs, |subs|)
    ensures out.failure.Some? ==> out.failure == Some(NotInitialized(subs[FirstMissing(reg.matrices.Keys, subs)].0))
    decreases |subs|
  {
    if |subs| == 0 then Applied(reg, None)
    else
      var (name, params) := subs[0];
      if name !in reg.matrices then
        Applied(reg, Some(NotInitialized(name)))
      else
        var next := reg.(matrices := reg.matrices[name := Some(Instantiate(name, params))]);
        assert forall i :: 1 <= i < |subs| ==> subs[i] == subs[1..][i - 1];
        ApplySubstitutions(next, subs[1..])
  }

  /** A registered name that no entry mentions keeps its matrix. */
  lemma {:induction false} SubstitutionsLeaveOthers(reg: Registry, subs: seq<(string, LinkParams)>, x: string)
    requires x in reg.matrices && forall i :: 0 <= i < |subs| ==> subs[i].0 != x
    ensures ApplySubstitutions(reg, subs).registry.matrices[x] == reg.matrices[x]
    decreases |subs|
  {
    if |subs| > 0 && subs[0].0 in reg.matrices {
      var (name, params) := subs[0];
      var next := reg.(matrices := reg.matrices[name := Some(Instantiate(name, params))]);
      assert forall i :: 1 <= i < |subs| ==> subs[i] == subs[1..][i - 1];
      SubstitutionsLeaveOthers(next, subs[1..], x);
    }
  }

  /**
   * On success every name holds the instantiation of the last entry for
   * it: later entries for the same name overwrite earlier ones.
   */
  lemma {:induction false} SubstitutionsInstantiate(reg: Registry, subs: seq<(string, LinkParams)>, i: nat)
    requires i < |subs| && LastFor(subs, i)
    requires ApplySubstitutions(reg, subs).failure.None?
    ensures ApplySubstitutions(reg, subs).registry.matrices[subs[i].0] == Some(Instantiate(subs[i].0, subs[i].1))
    decreases |subs|
  {
    var (name, params) := subs[0];
    assert name in reg.matrices by {
      assert AllRegistered(reg, subs, |subs|);
    }
    var next := reg.(matrices := reg.matrices[name := Some(Instantiate(name, params))]);
    assert ApplySubstitutions(reg, subs) == ApplySubstitutions(next, subs[1..]);
    if i > 0 {
      assert subs[i] == subs[1..][i - 1];
      assert LastFor(subs[1..], i - 1) by {
        forall j | i - 1 < j < |subs| - 1
          ensures subs[1..][j].0 != subs[1..][i - 1].0
        {
          assert subs[1..][j] == subs[j + 1];
        }
      }
      SubstitutionsInstantiate(next, subs[1..], i - 1);
    } else {
      assert forall j :: 0 <= j < |subs[1..]| ==> subs[1..][j].0 != name;
      SubstitutionsLeaveOthers(next, subs[1..], name);
    }
  }

  /**
   * The error is not atomic: when entry `i` is the first unregistered
   * name, the registry left behind is exactly the one the entries before
   * it produce on their own.
   */
  lemma {:induction false} FailureKeepsEarlierUpdates(reg: Registry, subs: seq<(string, LinkParams)>, i: nat)
    requires i < |subs| && subs[i].0 !in reg.matrices && AllRegistered(reg, subs, i)
    ensures ApplySubstitutions(reg, subs).failure == Some(NotInitialized(subs[i].0))
    ensures ApplySubstitutions(reg, subs[..i]).failure == None
    ensures ApplySubstitutions(reg, subs).registry == ApplySubstitutions(reg, subs[..i]).registry
    decreases i
  {
    if i > 0 {
      var (name, params) := subs[0];
      assert name in reg.matrices;
      var next := reg.(matrices := reg.matrices[name := Some(Instantiate(name, params))]);
      assert ApplySubstitutions(reg, subs) == ApplySubstitutions(next, subs[1..]);
      var pre := subs[..i];
      assert pre[0] == subs[0] && pre[1..] == subs[1..][..i - 1];
      assert ApplySubstitutions(reg, pre) == ApplySubstitutions(next, pre[1..]);
      assert subs[1..][i - 1] == subs[i];
      assert AllRegistered(next, subs[1..], i - 1);
      FailureKeepsEarlierUpdates(next, subs[1..], i - 1);
    }
  }

  /** Substitution keeps the registry homogeneous: every link it stores has the DH bottom row. */
  lemma {:induction false} SubstitutionsKeepHomogeneous(reg: Registry, subs: seq<(string, LinkParams)>)
    requires AllHomogeneous(reg)
    ensures AllHomogeneous(ApplySubstitutions(reg, subs).registry)
    decreases |subs|
  {
    if |subs| > 0 && subs[0].0 in reg.matrices {
      var (name, params) := subs[0];
      var next := reg.(matrices := reg.matrices[name := Some(Instantiate(name, params))]);
      SubstitutionsKeepHomogeneous(next, subs[1..]);
    }
  }

  // ---------------------------------------------------------------------
  // Compound transforms

  /** The link matrices `A{j}{j+1}`, j < k, that are registered and not `None`, in chain order. */
  function Factors(m: map<string, Option<Matrix>>, k: nat): (fs: seq<Matrix>)
    ensures |fs| <= k
    ensures |fs| == 0 <==> forall j :: 0 <= j < k ==> !(LinkName(j) in m && m[LinkName(j)].Some?)
  {
    if k == 0 then []
    else
      var l := LinkName(k - 1);
      var fs := Factors(m, k - 1);
      if l in m && m[l].Some? then fs + [m[l].value] else fs
  }

  /** Every factor is the matrix of some registered link before k. */
  lemma {:induction false} FactorsComeFromLinks(m: map<string, Option<Matrix>>, k: nat, t: nat)
    requires t < |Factors(m, k)|
    ensures exists j :: 0 <= j < k && LinkName(j) in m && m[LinkName(j)] == Some(Factors(m, k)[t])
  {
    var l := LinkName(k - 1);
    if t < |Factors(m, k - 1)| {
      FactorsComeFromLinks(m, k - 1, t);
    } else {
      assert m[l] == Some(Factors(m, k)[t]);
    }
  }

  /** The factors before j are the start of the factors before any k >= j. */
  lemma {:induction false} FactorsPrefix(m: map<string, Option<Matrix>>, j: nat, k: nat)
    requires j <= k
    ensures |Factors(m, j)| <= |Factors(m, k)|
    ensures Factors(m, k)[..|Factors(m, j)|] == Factors(m, j)
  {
    if j < k {
      FactorsPrefix(m, j, k - 1);
      FactorsStep(m, k);
      PrefixThrough(Factors(m, j), Factors(m, k - 1), Factors(m, k));
    }
  }

  /** One more link extends the factors or leaves them as they are. */
  lemma FactorsStep(m: map<string, Option<Matrix>>, k: nat)
    requires k > 0
    ensures |Factors(m, k - 1)| <= |Factors(m, k)|
    ensures Factors(m, k)[..|Factors(m, k - 1)|] == Factors(m, k - 1)
  {
    var l := LinkName(k - 1);
    var prev := Factors(m, k - 1);
    if l in m && m[l].Some? {
      assert Factors(m, k) == prev + [m[l].value];
      assert (prev + [m[l].value])[..|prev|] == prev;
    } else {
      assert Factors(m, k) == prev;
    }
  }

  /** Being a prefix is transitive. */
  lemma PrefixThrough<T>(short: seq<T>, mid: seq<T>, long: seq<T>)
    requires |short| <= |mid| <= |long|
    requires mid[..|short|] == short && long[..|mid|] == mid
    ensures long[..|short|] == short
  {
    assert long[..|short|] == long[..|mid|][..|short|];
  }

  /**
   * Every registered, non-`None` link j < k is collected, right after the
   * factors of the links before it; with `FactorsPrefix` this fixes the
   * chain order even when links are missing.
   */
  lemma {:induction false} FactorsCollectPresent(m: map<string, Option<Matrix>>, j: nat, k: nat)
    requires j < k
    requires LinkName(j) in m && m[LinkName(j)].Some?
    ensures |Factors(m, j)| < |Factors(m, k)|
    ensures Factors(m, k)[|Factors(m, j)|] == m[LinkName(j)].value
  {
    var v := m[LinkName(j)].value;
    assert Factors(m, j + 1) == Factors(m, j) + [v];
    FactorsPrefix(m, j + 1, k);
    assert Factors(m, k)[|Factors(m, j)|] == Factors(m, k)[..|Factors(m, j + 1)|][|Factors(m, j)|];
  }

  /** With every link up to k present, the factors are exactly those k links in order. */
  lemma {:induction false} FactorsOfCompleteChain(m: map<string, Option<Matrix>>, k: nat)
    requires forall j :: 0 <= j < k ==> LinkName(j) in m && m[LinkName(j)].Some?
    ensures |Factors(m, k)| == k
    ensures forall j :: 0 <= j < k ==> Factors(m, k)[j] == m[LinkName(j)].value
  {
    if k > 0 {
      FactorsOfCompleteChain(m, k - 1);
      var prev, last := Factors(m, k - 1), m[LinkName(k - 1)].value;
      assert Factors(m, k) == prev + [last];
      forall j | 0 <= j < k
        ensures Factors(m, k)[j] == m[LinkName(j)].value
      {
        if j < k - 1 {
          assert Factors(m, k)[j] == prev[j];
        }
      }
    }
  }

  /** Writing a compound entry does not change which links are factors. */
  lemma {:induction false} FactorsIgnoreCompounds(m: map<string, Option<Matrix>>, l: nat, v: Option<Matrix>, k: nat)
    requires l >= 2
    ensures Factors(m[CompoundName(l) := v], k) == Factors(m, k)
  {
    if k > 0 {
      var link := LinkName(k - 1);
      var m' := m[CompoundName(l) := v];
      assert (link in m') == (link in m) && (link in m ==> m'[link] == m[link]) by {
        CompoundIsNotLink(l, k - 1);
      }
      FactorsIgnoreCompounds(m, l, v, k - 1);
      assert Factors(m', k) == if link in m' && m'[link].Some? then Factors(m', k - 1) + [m'[link].value] else Factors(m', k - 1);
      assert Factors(m, k) == if link in m && m[link].Some? then Factors(m, k - 1) + [m[link].value] else Factors(m, k - 1);
    }
  }

  /** One iteration of the outer loop of `build_compound_matrices`. */
  function CompoundStep(m: map<string, Option<Matrix>>, k: nat): map<string, Option<Matrix>> {
    var name := CompoundName(k);
    if name in m && |Factors(m, k)| > 0 then m[name := Some(Product(Factors(m, k)))] else m
  }

  /** The outer loop from `k` to `n`. */
  function BuildFrom(m: map<string, Option<Matrix>>, k: nat, n: int): map<string, Option<Matrix>>
    decreases n - k
  {
    if k > n then m else BuildFrom(CompoundStep(m, k), k + 1, n)
  }

  /** What `build_compound_matrices` stores for `A0{k}`, read off the registry it started from. */
  function CompoundValue(m: map<string, Option<Matrix>>, k: nat): Option<Matrix>
    requires CompoundName(k) in m
  {
    if |Factors(m, k)| > 0 then Some(Product(Factors(m, k))) else m[CompoundName(k)]
  }

  /** The outer loop only rewrites existing entries. */
  lemma {:induction false} BuildFromKeys(m: map<string, Option<Matrix>>, k: nat, n: int)
    ensures BuildFrom(m, k, n).Keys == m.Keys
    decreases n - k
  {
    if k <= n {
      BuildFromKeys(CompoundStep(m, k), k + 1, n);
    }
  }

  /** Entries that are not compounds `A0{l}`, k <= l <= n, are left alone. */
  lemma {:induction false} BuildFromOthers(m: map<string, Option<Matrix>>, k: nat, n: int, x: string)
    requires x in m && forall l :: k <= l <= n ==> x != CompoundName(l)
    ensures x in BuildFrom(m, k, n) && BuildFrom(m, k, n)[x] == m[x]
    decreases n - k
  {
    if k <= n {
      var m' := CompoundStep(m, k);
      assert x != CompoundName(k);
      assert m'[x] == m[x];
      BuildFromOthers(m', k + 1, n, x);
    }
  }

  /** Each registered compound `A0{l}`, k <= l <= n, ends up with its value read off the starting registry. */
  lemma {:induction false} BuildFromCompound(m: map<string, Option<Matrix>>, k: nat, n: int, l: nat)
    requires 2 <= k <= l <= n && CompoundName(l) in m
    ensures CompoundName(l) in BuildFrom(m, k, n) && BuildFrom(m, k, n)[CompoundName(l)] == CompoundValue(m, l)
    decreases n - k
  {
    var m' := CompoundStep(m, k);
    assert BuildFrom(m, k, n) == BuildFrom(m', k + 1, n);
    if l == k {
      forall l' | k + 1 <= l' <= n
        ensures CompoundName(k) != CompoundName(l')
      {
        CompoundNamesDistinct(k, l');
      }
      BuildFromOthers(m', k + 1, n, CompoundName(k));
    } else {
      CompoundNamesDistinct(l, k);
      StepKeepsFactors(m, k, l);
      assert m'[CompoundName(l)] == m[CompoundName(l)];
      assert CompoundValue(m', l) == CompoundValue(m, l);
      BuildFromCompound(m', k + 1, n, l);
    }
  }

  lemma StepKeepsFactors(m: map<string, Option<Matrix>>, k: nat, l: nat)
    requires k >= 2
    ensures Factors(CompoundStep(m, k), l) == Factors(m, l)
  {
    if CompoundName(k) in m && |Factors(m, k)| > 0 {
      FactorsIgnoreCompounds(m, k, Some(Product(Factors(m, k))), l);
    }
  }

  /**
   * `build_compound_matrices(n)`: for each k = 2..n whose `A0{k}` is
   * registered, stores the left-to-right product of the registered,
   * non-`None` links `A{j}{j+1}`, j < k, skipping the others; with no such
   * link the entry is left as it was. Unregistered compound names are not
   * created, and nothing else changes.
   */
  function BuildCompound(reg: Registry, n: int): (r: Registry)
    ensures r.simplified == reg.simplified
    ensures r.matrices.Keys == reg.matrices.Keys
    ensures forall x :: x in reg.matrices && (forall l :: 2 <= l <= n ==> x != CompoundName(l)) ==> r.matrices[x] == reg.matrices[x]
    ensures forall k :: 2 <= k <= n && CompoundName(k) in reg.matrices ==>
      r.matrices[CompoundName(k)] == CompoundValue(reg.matrices, k)
  {
    BuildFromKeys(reg.matrices, 2, n);
    forall x | x in reg.matrices && (forall l :: 2 <= l <= n ==> x != CompoundName(l))
      ensures BuildFrom(reg.matrices, 2, n)[x] == reg.matrices[x]
    {
      BuildFromOthers(reg.matrices, 2, n, x);
    }
    forall k | 2 <= k <= n && CompoundName(k) in reg.matrices
      ensures BuildFrom(reg.matrices, 2, n)[CompoundName(k)] == CompoundValue(reg.matrices, k)
    {
      BuildFromCompound(reg.matrices, 2, n, k);
    }
    reg.(matrices := BuildFrom(reg.matrices, 2, n))
  }

  /** Links are never touched by composition. */
  lemma BuildKeepsLinks(reg: Registry, n: int, j: nat)
    requires LinkName(j) in reg.matrices
    ensures BuildCompound(reg, n).matrices[LinkName(j)] == reg.matrices[LinkName(j)]
  {
    forall l | 2 <= l <= n
      ensures LinkName(j) != CompoundName(l)
    {
      CompoundIsNotLink(l, j);
    }
  }

  /**
   * The chain recurrence A0k = A0(k-1) * A(k-1)k: when every link up to k
   * is present and both compounds are registered, the compound for k is
   * the compound for k-1 multiplied on the right by the next link. For
   * k = 2 the name `A01` of the "compound" for 1 is the first link itself.
   */
  lemma CompoundRecurrence(reg: Registry, n: int, k: nat)
    requires 2 <= k <= n
    requires forall j :: 0 <= j < k ==> LinkName(j) in reg.matrices && reg.matrices[LinkName(j)].Some?
    requires CompoundName(k) in reg.matrices && CompoundName(k - 1) in reg.matrices
    ensures BuildCompound(reg, n).matrices[CompoundName(k - 1)].Some?
    ensures BuildCompound(reg, n).matrices[CompoundName(k)]
         == Some(MatMul(BuildCompound(reg, n).matrices[CompoundName(k - 1)].value, reg.matrices[LinkName(k - 1)].value))
  {
    var m := reg.matrices;
    if k == 2 {
      FirstCompoundIsFirstLink();
      BuildKeepsLinks(reg, n, 0);
    }
    FactorsOfCompleteChain(m, k - 1);
    assert Factors(m, k) == Factors(m, k - 1) + [m[LinkName(k - 1)].value];
    ProductSnoc(Factors(m, k - 1), m[LinkName(k - 1)].value);
  }

  /** `A0{1}` and `A{0}{1}` are the same name, `A01`. */
  lemma FirstCompoundIsFirstLink()
    ensures CompoundName(1) == LinkName(0)
  {
    assert Digits(0) == "0" && Digits(1) == "1";
  }

  /** Composition keeps the registry homogeneous: products of DH links keep the bottom row `[0, 0, 0, 1]`. */
  lemma CompositionKeepsHomogeneous(reg: Registry, n: int)
    requires AllHomogeneous(reg)
    ensures AllHomogeneous(BuildCompound(reg, n))
  {
    var r := BuildCompound(reg, n);
    forall x | x in r.matrices && r.matrices[x].Some?
      ensures Homogeneous(r.matrices[x].value)
    {
      if k :| 2 <= k <= n && x == CompoundName(k) {
        var fs := Factors(reg.matrices, k);
        if |fs| > 0 {
          forall t | 0 <= t < |fs|
            ensures Homogeneous(fs[t])
          {
            FactorsComeFromLinks(reg.matrices, k, t);
          }
          ProductHomogeneous(fs);
        }
      }
    }
  }

  // ---------------------------------------------------------------------
  // Simplification

  /**
   * `simplify_matrices`, with the computer-algebra simplifier passed in as
   * `simp`: for each listed name registered with a matrix, stores
   * `simp` of it in `simplified`. Listed names that are unregistered or
   * `None` are skipped, and `matrices` is never modified.
   */
  function SimplifyMatrices(reg: Registry, names: seq<string>, simp: Matrix -> Matrix): (r: Registry)
    ensures r.matrices == reg.matrices
    ensures forall x :: x in r.simplified <==>
      x in reg.simplified || (x in names && x in reg.matrices && reg.matrices[x].Some?)
    ensures forall x :: x in names && x in reg.matrices && reg.matrices[x].Some? ==>
      r.simplified[x] == Some(simp(reg.matrices[x].value))
    ensures forall x :: x in reg.simplified && !(x in names && x in reg.matrices && reg.matrices[x].Some?) ==>
      r.simplified[x] == reg.simplified[x]
    decreases |names|
  {
    if |names| == 0 then reg
    else
      var name := names[0];
      var next :=
        if name in reg.matrices && reg.matrices[name].Some?
        then reg.(simplified := reg.simplified[name := Some(simp(reg.matrices[name].value))])
        else reg;
      assert forall x :: x in names <==> x == name || x in names[1..];
      SimplifyMatrices(next, names[1..], simp)
  }

  /**
   * With a lossless simplifier (one that never changes a matrix's value),
   * each freshly simplified entry evaluates exactly like its source matrix.
   */
  lemma SimplifiedAgrees(reg: Registry, names: seq<string>, simp: Matrix -> Matrix, x: string, env: Interp, i: nat, j: nat)
    requires forall m: Matrix, e: Interp, a: nat, b: nat :: a < 4 && b < 4 ==> Eval(simp(m)[a][b], e) == Eval(m[a][b], e)
    requires x in names && x in reg.matrices && reg.matrices[x].Some?
    requires i < 4 && j < 4
    ensures SimplifyMatrices(reg, names, simp).simplified[x].Some?
    ensures Eval(SimplifyMatrices(reg, names, simp).simplified[x].value[i][j], env) == Eval(reg.matrices[x].value[i][j], env)
  {
  }
}

=== FILE: ik.dfy ===
/**
 * The closed-form inverse kinematics of `inverse_kinematics` for the
 * three-joint arm (vertical base joint, then two coplanar unit links).
 *
 * The numeric library functions (`sqrt`, `arccos`, `arctan2`, `sin`,
 * `cos`) are carried in a `Numerics` value and stay uninterpreted. Only
 * two facts about them are ever assumed, each only where a lemma says so:
 * `sqrt(x) * sqrt(x) == x` for `x >= 0`, and `arccos(1.0) == 0.0`.
 * The control structure is modelled exactly: two base branches, each
 * either flagged unreachable or contributing two elbow candidates, each
 * candidate labelled and sorted by the joint limits.
 */
module InverseKinematics {

  /** numpy's `np.pi`, as the shortest decimal that rounds to that double. */
  const Pi: real := 3.141592653589793

  /** The library functions the solver calls, left uninterpreted. */
  datatype Numerics = Numerics(
    sqrt: real -> real,
    arccos: real -> real,
    arctan2: (real, real) -> real,
    sin: real -> real,
    cos: real -> real)

  /** The one property of `sqrt` the reachability lemma needs. */
  ghost predicate SqrtSquares(t: Numerics) {
    forall x :: x >= 0.0 ==> t.sqrt(x) * t.sqrt(x) == x
  }

  function Abs(x: real): real {
    if x < 0.0 then -x else x
  }

  /** One candidate: the three joint angles and the configuration label. */
  datatype Solution = Solution(theta1: real, theta2: real, theta3: real, config: string)

  datatype IKResult = IKResult(valid: seq<Solution>, invalid: seq<Solution>, unreachable: bool)

  // ---------------------------------------------------------------------
  // The geometry of one base branch

  /** The signed horizontal reach `A = A_sign * sqrt(px^2 + py^2)`. */
  function Reach(t: Numerics, sign: real, px: real, py: real): real {
    sign * t.sqrt(px * px + py * py)
  }

  /** The law-of-cosines value `cos_theta3 = (A^2 + B^2 - 2) / 2`, with `B = pz`. */
  function CosTheta3(t: Numerics, sign: real, px: real, py: real, pz: real): real {
    var a := Reach(t, sign, px, py);
    (a * a + pz * pz - 2.0) / 2.0
  }

  /**
   * The base angle of a branch: `arctan2(py, px)`, turned by half a
   * revolution for the negative branch (adding pi to a negative angle,
   * subtracting it otherwise).
   */
  function BaseAngle(t: Numerics, sign: real, px: real, py: real): (theta1: real)
    ensures sign >= 0.0 ==> theta1 == t.arctan2(py, px)
    ensures sign < 0.0 ==> Abs(theta1 - t.arctan2(py, px)) == Pi
  {
    var theta1 := t.arctan2(py, px);
    if sign < 0.0 then (if theta1 < 0.0 then theta1 + Pi else theta1 - Pi) else theta1
  }

  /** The shoulder angle for elbow angle `theta3`. */
  function Shoulder(t: Numerics, a: real, b: real, theta3: real): real {
    var c := 2.0 * (t.cos(theta3 / 2.0) * t.cos(theta3 / 2.0));
    var d := t.sin(theta3);
    t.arctan2(b * c - a * d, a * c + b * d)
  }

  /** `"plus-"` or `"minus-"` from the sign of theta2, then `"plus"` or `"minus"` from theta3; zero counts as minus. */
  function Label(theta2: real, theta3: real): string {
    (if theta2 > 0.0 then "plus-" else "minus-") + (if theta3 > 0.0 then "plus" else "minus")
  }

  predicate IsConfigLabel(s: string) {
    s == "plus-plus" || s == "plus-minus" || s == "minus-plus" || s == "minus-minus"
  }

  /** Every label is exactly one of the four sign combinations, chosen by the signs. */
  lemma LabelExhaustive(theta2: real, theta3: real)
    ensures IsConfigLabel(Label(theta2, theta3))
    ensures Label(theta2, theta3) == "plus-plus" <==> theta2 > 0.0 && theta3 > 0.0
    ensures Label(theta2, theta3) == "plus-minus" <==> theta2 > 0.0 && theta3 <= 0.0
    ensures Label(theta2, theta3) == "minus-plus" <==> theta2 <= 0.0 && theta3 > 0.0
    ensures Label(theta2, theta3) == "minus-minus" <==> theta2 <= 0.0 && theta3 <= 0.0
  {
    assert "plus-" + "plus" == "plus-plus";
    assert "plus-" + "minus" == "plus-minus";
    assert "minus-" + "plus" == "minus-plus";
    assert "minus-" + "minus" == "minus-minus";
    assert "plus-plus" != "plus-minus" && "plus-plus" != "minus-plus" && "plus-plus" != "minus-minus";
    assert "plus-minus"[0] != "minus-plus"[0] && "plus-minus"[0] != "minus-minus"[0];
    assert "minus-plus"[6] != "minus-minus"[6];
  }

  function Candidate(t: Numerics, sign: real, px: real, py: real, pz: real, theta3: real): Solution {
    var theta2 := Shoulder(t, Reach(t, sign, px, py), pz, theta3);
    Solution(BaseAngle(t, sign, px, py), theta2, theta3, Label(theta2, theta3))
  }

  /** The joint limits: theta2 in [-pi/4, 3pi/4] and theta3 in [-3pi/4, 3pi/4]; theta1 is free. */
  predicate WithinLimits(s: Solution) {
    && -Pi / 4.0 <= s.theta2 <= 3.0 * Pi / 4.0
    && -3.0 * Pi / 4.0 <= s.theta3 <= 3.0 * Pi / 4.0
  }

  // ---------------------------------------------------------------------
  // The enumeration, as the source's two nested loops

  /** Files one candidate: into `valid` when limits are off or it is within them, else into `invalid`. */
  function Record(acc: IKResult, s: Solution, limits: bool): IKResult {
    if !limits || WithinLimits(s) then acc.(valid := acc.valid + [s]) else acc.(invalid := acc.invalid + [s])
  }

  /** The inner loop: files each candidate in turn. */
  function File(acc: IKResult, sols: seq<Solution>, limits: bool): IKResult
    decreases |sols|
  {
    if |sols| == 0 then acc else File(Record(acc, sols[0], limits), sols[1..], limits)
  }

  /** The two elbow candidates of one branch, `theta3 = arccos(c)` then `theta3 = -arccos(c)`. */
  function ElbowCandidates(t: Numerics, sign: real, px: real, py: real, pz: real, c: real): seq<Solution> {
    var e := t.arccos(c);
    [Candidate(t, sign, px, py, pz, e), Candidate(t, sign, px, py, pz, -e)]
  }

  /** One pass of the outer loop for base sign `sign`. */
  function Branch(t: Numerics, px: real, py: real, pz: real, limits: bool, sign: real, acc: IKResult): IKResult {
    var c := CosTheta3(t, sign, px, py, pz);
    if Abs(c) > 1.0 then acc.(unreachable := true)
    else File(acc, ElbowCandidates(t, sign, px, py, pz, c), limits)
  }

  function Enumerate(t: Numerics, px: real, py: real, pz: real, limits: bool, signs: seq<real>, acc: IKResult): IKResult
    decreases |signs|
  {
    if |signs| == 0 then acc else Enumerate(t, px, py, pz, limits, signs[1..], Branch(t, px, py, pz, limits, signs[0], acc))
  }

  // ---------------------------------------------------------------------
  // Reference description of the result

  /**
   * The four candidates in the order the loops produce them:
   * (A+, +arccos), (A+, -arccos), (A-, +arccos), (A-, -arccos), all from
   * the single value `cos_theta3` of the positive branch.
   */
  function Candidates(t: Numerics, px: real, py: real, pz: real): seq<Solution> {
    var e := t.arccos(CosTheta3(t, 1.0, px, py, pz));
    [ Candidate(t, 1.0, px, py, pz, e), Candidate(t, 1.0, px, py, pz, -e),
      Candidate(t, -1.0, px, py, pz, e), Candidate(t, -1.0, px, py, pz, -e) ]
  }

  /** The members of `xs`, in order, on which `f` comes out as `b`. */
  function Keep<T>(xs: seq<T>, f: T -> bool, b: bool): (r: seq<T>)
    ensures |r| <= |xs|
  {
    if |xs| == 0 then []
    else if f(xs[0]) == b then [xs[0]] + Keep(xs[1..], f, b)
    else Keep(xs[1..], f, b)
  }

  /** The candidates of `sols`, in order, whose limit check comes out as `inLimits`. */
  function Select(sols: seq<Solution>, inLimits: bool): seq<Solution> {
    Keep(sols, WithinLimits, inLimits)
  }

  /** `Keep` keeps exactly the members of `xs` on which `f` is `b`. */
  lemma {:induction false} KeepMembers<T>(xs: seq<T>, f: T -> bool, b: bool)
    ensures forall x :: x in Keep(xs, f, b) <==> x in xs && f(x) == b
  {
    if |xs| > 0 {
      KeepMembers(xs[1..], f, b);
      assert xs == [xs[0]] + xs[1..];
    }
  }

  /** Splitting by `f` loses and duplicates nothing. */
  lemma {:induction false} KeepPartitions<T>(xs: seq<T>, f: T -> bool)
    ensures multiset(Keep(xs, f, true)) + multiset(Keep(xs, f, false)) == multiset(xs)
  {
    if |xs| > 0 {
      var x, rest := xs[0], xs[1..];
      KeepPartitions(rest, f);
      KeepCons(xs, f, true);
      KeepCons(xs, f, false);
      MultisetCons(xs);
      AddToOneSide(x, f(x), multiset(Keep(xs, f, true)), multiset(Keep(xs, f, false)),
                   multiset(Keep(rest, f, true)), multiset(Keep(rest, f, false)), multiset(rest));
    }
  }

  /** One step of `Keep`, seen as multisets: the head goes to the side `f` chooses. */
  lemma KeepCons<T>(xs: seq<T>, f: T -> bool, b: bool)
    requires |xs| > 0
    ensures multiset(Keep(xs, f, b))
         == (if f(xs[0]) == b then multiset{xs[0]} + multiset(Keep(xs[1..], f, b)) else multiset(Keep(xs[1..], f, b)))
  {
    if f(xs[0]) == b {
      assert Keep(xs, f, b) == [xs[0]] + Keep(xs[1..], f, b);
    }
  }

  lemma MultisetCons<T>(xs: seq<T>)
    requires |xs| > 0
    ensures multiset(xs) == multiset{xs[0]} + multiset(xs[1..])
  {
    assert xs == [xs[0]] + xs[1..];
  }

  /** Adding `x` to the side `fx` selects keeps the two sides summing to the whole. */
  lemma AddToOneSide<T>(x: T, fx: bool, yes': multiset<T>, no': multiset<T>, yes: multiset<T>, no: multiset<T>, rest: multiset<T>)
    requires yes + no == rest
    requires yes' == (if fx == true then multiset{x} + yes else yes)
    requires no' == (if fx == false then multiset{x} + no else no)
    ensures yes' + no' == multiset{x} + rest
  {
  }

  /** Hence the two sides of the split add up to the whole list. */
  lemma KeepSizes<T>(xs: seq<T>, f: T -> bool)
    ensures |Keep(xs, f, true)| + |Keep(xs, f, false)| == |xs|
  {
    KeepPartitions(xs, f);
    assert |multiset(Keep(xs, f, true)) + multiset(Keep(xs, f, false))| == |multiset(xs)|;
  }

  /** Filtering distributes over concatenation. */
  lemma {:induction false} KeepAppend<T>(xs: seq<T>, ys: seq<T>, f: T -> bool, b: bool)
    ensures Keep(xs + ys, f, b) == Keep(xs, f, b) + Keep(ys, f, b)
  {
    if |xs| == 0 {
      assert xs + ys == ys;
    } else {
      assert (xs + ys)[0] == xs[0];
      assert (xs + ys)[1..] == xs[1..] + ys;
      KeepAppend(xs[1..], ys, f, b);
      if f(xs[0]) == b {
        assert [xs[0]] + (Keep(xs[1..], f, b) + Keep(ys, f, b)) == ([xs[0]] + Keep(xs[1..], f, b)) + Keep(ys, f, b);
      }
    }
  }

  /** The negative branch sees the same `cos_theta3`: only `A * A` enters it, and `(-A) * (-A) == A * A`. */
  lemma BranchesShareCosTheta3(t: Numerics, px: real, py: real, pz: real)
    ensures CosTheta3(t, -1.0, px, py, pz) == CosTheta3(t, 1.0, px, py, pz)
  {
    var q := t.sqrt(px * px + py * py);
    assert Reach(t, -1.0, px, py) == -q;
    assert Reach(t, 1.0, px, py) == q;
    assert (-q) * (-q) == q * q;
  }

  /** Filing one candidate with the limits on is selecting it. */
  lemma RecordSelects(acc: IKResult, s: Solution)
    ensures Record(acc, s, true) == IKResult(acc.valid + Select([s], true), acc.invalid + Select([s], false), acc.unreachable)
  {
    assert [s][1..] == [];
    if WithinLimits(s) {
      assert Select([s], true) == [s] && Select([s], false) == [];
      assert acc.invalid + [] == acc.invalid;
    } else {
      assert Select([s], true) == [] && Select([s], false) == [s];
      assert acc.valid + [] == acc.valid;
    }
  }

  /** Filing a list one by one with the limits on, as the inner loop does, is selecting it by the limit check. */
  lemma {:induction false} FileSelects(acc: IKResult, sols: seq<Solution>)
    ensures File(acc, sols, true) == IKResult(acc.valid + Select(sols, true), acc.invalid + Select(sols, false), acc.unreachable)
    decreases |sols|
  {
    if |sols| == 0 {
      assert acc.valid + [] == acc.valid && acc.invalid + [] == acc.invalid;
    } else {
      var s, rest := sols[0], sols[1..];
      var next := Record(acc, s, true);
      assert File(acc, sols, true) == File(next, rest, true);
      FileSelects(next, rest);
      RecordSelects(acc, s);
      assert sols == [s] + rest;
      KeepAppend([s], rest, WithinLimits, true);
      KeepAppend([s], rest, WithinLimits, false);
      assert acc.valid + Select([s], true) + Select(rest, true) == acc.valid + Select(sols, true);
      assert acc.invalid + Select([s], false) + Select(rest, false) == acc.invalid + Select(sols, false);
    }
  }

  /** With the limits off, filing appends everything to `valid`. */
  lemma {:induction false} FileKeepsAll(acc: IKResult, sols: seq<Solution>)
    ensures File(acc, sols, false) == acc.(valid := acc.valid + sols)
    decreases |sols|
  {
    if |sols| == 0 {
      assert acc.valid + [] == acc.valid;
    } else {
      var s := sols[0];
      FileKeepsAll(Record(acc, s, false), sols[1..]);
      assert acc.valid + [s] + sols[1..] == acc.valid + sols;
    }
  }

  /**
   * `inverse_kinematics(px, py, pz, joint_limits)`. The shared
   * `unreachable` flag is set exactly when `|cos_theta3| > 1`, which is
   * the same test for both branches, so it never coexists with a
   * solution. Otherwise all four candidates are reported, in loop order:
   * with limits on, split by the limit check (nothing dropped); with
   * limits off, all in `valid`. Every label is one of the four
   * configurations.
   */
  function Solve(t: Numerics, px: real, py: real, pz: real, limits: bool): (r: IKResult)
    ensures r.unreachable <==> Abs(CosTheta3(t, 1.0, px, py, pz)) > 1.0
    ensures r.unreachable ==> r.valid == [] && r.invalid == []
    ensures !r.unreachable ==> |r.valid| + |r.invalid| == 4
    ensures !r.unreachable && limits ==>
      r.valid == Select(Candidates(t, px, py, pz), true) && r.invalid == Select(Candidates(t, px, py, pz), false)
    ensures !r.unreachable && !limits ==> r.valid == Candidates(t, px, py, pz) && r.invalid == []
  {
    BranchesShareCosTheta3(t, px, py, pz);
    KeepSizes(Candidates(t, px, py, pz), WithinLimits);
    if Abs(CosTheta3(t, 1.0, px, py, pz)) > 1.0 then
      Enumerate(t, px, py, pz, limits, [1.0, -1.0], IKResult([], [], false))
    else
      ReachableEnumeration(t, px, py, pz, limits);
      Enumerate(t, px, py, pz, limits, [1.0, -1.0], IKResult([], [], false))
  }

  /** With the limits on, every reported candidate sits on the side of the limit check its list says. */
  lemma SolveSorted(t: Numerics, px: real, py: real, pz: real)
    ensures var r := Solve(t, px, py, pz, true);
      (forall k :: 0 <= k < |r.valid| ==> WithinLimits(r.valid[k])) && (forall k :: 0 <= k < |r.invalid| ==> !WithinLimits(r.invalid[k]))
  {
    var r := Solve(t, px, py, pz, true);
    var cs := Candidates(t, px, py, pz);
    KeepMembers(cs, WithinLimits, true);
    KeepMembers(cs, WithinLimits, false);
    assert forall k :: 0 <= k < |r.valid| ==> r.valid[k] in r.valid;
    assert forall k :: 0 <= k < |r.invalid| ==> r.invalid[k] in r.invalid;
  }

  /** Every reported candidate carries one of the four configuration labels. */
  lemma SolveLabelled(t: Numerics, px: real, py: real, pz: real, limits: bool)
    ensures var r := Solve(t, px, py, pz, limits);
      (forall k :: 0 <= k < |r.valid| ==> IsConfigLabel(r.valid[k].config))
      && (forall k :: 0 <= k < |r.invalid| ==> IsConfigLabel(r.invalid[k].config))
  {
    var r := Solve(t, px, py, pz, limits);
    var cs := Candidates(t, px, py, pz);
    CandidatesLabelled(t, px, py, pz);
    KeepMembers(cs, WithinLimits, true);
    KeepMembers(cs, WithinLimits, false);
    assert forall k :: 0 <= k < |r.valid| ==> r.valid[k] in r.valid;
    assert forall k :: 0 <= k < |r.invalid| ==> r.invalid[k] in r.invalid;
  }

  lemma CandidatesLabelled(t: Numerics, px: real, py: real, pz: real)
    ensures forall s :: s in Candidates(t, px, py, pz) ==> IsConfigLabel(s.config)
  {
    forall s | s in Candidates(t, px, py, pz)
      ensures IsConfigLabel(s.config)
    {
      LabelExhaustive(s.theta2, s.theta3);
    }
  }

  lemma ReachableEnumeration(t: Numerics, px: real, py: real, pz: real, limits: bool)
    requires Abs(CosTheta3(t, 1.0, px, py, pz)) <= 1.0
    ensures Enumerate(t, px, py, pz, limits, [1.0, -1.0], IKResult([], [], false))
         == if limits
            then IKResult(Select(Candidates(t, px, py, pz), true), Select(Candidates(t, px, py, pz), false), false)
            else IKResult(Candidates(t, px, py, pz), [], false)
  {
    BranchesShareCosTheta3(t, px, py, pz);
    var c := CosTheta3(t, 1.0, px, py, pz);
    var plus, minus := ElbowCandidates(t, 1.0, px, py, pz, c), ElbowCandidates(t, -1.0, px, py, pz, c);
    assert Candidates(t, px, py, pz) == plus + minus;
    var empty := IKResult([], [], false);
    TwoBranches(t, px, py, pz, limits, empty);
    assert Enumerate(t, px, py, pz, limits, [1.0, -1.0], empty) == File(File(empty, plus, limits), minus, limits);
    FilingTwice(plus, minus, limits);
  }

  /** Filing two lists after each other from empty files their concatenation. */
  lemma FilingTwice(a: seq<Solution>, b: seq<Solution>, limits: bool)
    ensures File(File(IKResult([], [], false), a, limits), b, limits)
         == if limits then IKResult(Select(a + b, true), Select(a + b, false), false) else IKResult(a + b, [], false)
  {
    var empty := IKResult([], [], false);
    if limits {
      FileSelects(empty, a);
      FileSelects(File(empty, a, true), b);
      KeepAppend(a, b, WithinLimits, true);
      KeepAppend(a, b, WithinLimits, false);
    } else {
      FileKeepsAll(empty, a);
      FileKeepsAll(File(empty, a, false), b);
      assert [] + a + b == a + b;
    }
  }

  lemma TwoBranches(t: Numerics, px: real, py: real, pz: real, limits: bool, acc: IKResult)
    ensures Enumerate(t, px, py, pz, limits, [1.0, -1.0], acc)
         == Branch(t, px, py, pz, limits, -1.0, Branch(t, px, py, pz, limits, 1.0, acc))
  {
    assert [1.0, -1.0][1..] == [-1.0];
    assert [-1.0][1..] == [];
  }

  /**
   * Turning the limits off moves every invalid candidate into `valid` and
   * changes nothing else: the same reachability, and as a multiset `valid`
   * is the enforced run's `valid` and `invalid` together.
   */
  lemma LimitsOffIsUnion(t: Numerics, px: real, py: real, pz: real)
    ensures Solve(t, px, py, pz, false).unreachable == Solve(t, px, py, pz, true).unreachable
    ensures Solve(t, px, py, pz, false).invalid == []
    ensures multiset(Solve(t, px, py, pz, false).valid)
         == multiset(Solve(t, px, py, pz, true).valid + Solve(t, px, py, pz, true).invalid)
  {
    KeepPartitions(Candidates(t, px, py, pz), WithinLimits);
  }

  /**
   * Within one branch the two elbow candidates share the base angle and
   * have opposite elbow angles; the two branches' base angles are half a
   * revolution apart.
   */
  lemma CandidatePairs(t: Numerics, px: real, py: real, pz: real)
    ensures var cs := Candidates(t, px, py, pz);
      && cs[0].theta1 == cs[1].theta1 && cs[0].theta3 == -cs[1].theta3
      && cs[2].theta1 == cs[3].theta1 && cs[2].theta3 == -cs[3].theta3
      && Abs(cs[2].theta1 - cs[0].theta1) == Pi
  {
  }

  /**
   * With `sqrt` squaring back, the target is unreachable exactly when it
   * lies farther than 2 (the two unit links end to end) from the shoulder.
   */
  lemma UnreachableBeyondFullReach(t: Numerics, px: real, py: real, pz: real)
    requires SqrtSquares(t)
    ensures Solve(t, px, py, pz, true).unreachable <==> px * px + py * py + pz * pz > 4.0
  {
    var h := px * px + py * py;
    assert h >= 0.0;
    var q := t.sqrt(h);
    assert q * q == h;
    assert Reach(t, 1.0, px, py) == q;
    assert CosTheta3(t, 1.0, px, py, pz) == (h + pz * pz - 2.0) / 2.0;
  }

  /** The source's demonstration target (0.5, 0.6, 0.7) is reachable: four candidates, none dropped. */
  lemma DemoTargetHasFourCandidates(t: Numerics, limits: bool)
    requires SqrtSquares(t)
    ensures !Solve(t, 0.5, 0.6, 0.7, limits).unreachable
    ensures |Solve(t, 0.5, 0.6, 0.7, limits).valid| + |Solve(t, 0.5, 0.6, 0.7, limits).invalid| == 4
  {
    UnreachableBeyondFullReach(t, 0.5, 0.6, 0.7);
    assert 0.5 * 0.5 + 0.6 * 0.6 + 0.7 * 0.7 == 1.1;
    assert !Solve(t, 0.5, 0.6, 0.7, true).unreachable;
  }

  /**
   * At full reach (distance exactly 2, `cos_theta3 == 1`) the loops still
   * report four candidates: with `arccos(1) == 0` the two elbow candidates
   * of each branch are the same solution, reported twice.
   */
  lemma FullReachRepeatsCandidates(t: Numerics, px: real, py: real, pz: real)
    requires SqrtSquares(t) && t.arccos(1.0) == 0.0
    requires px * px + py * py + pz * pz == 4.0
    ensures !Solve(t, px, py, pz, false).unreachable
    ensures var cs := Solve(t, px, py, pz, false).valid;
      |cs| == 4 && cs[0] == cs[1] && cs[2] == cs[3]
  {
    UnreachableBeyondFullReach(t, px, py, pz);
    var h := px * px + py * py;
    assert t.sqrt(h) * t.sqrt(h) == h;
    assert CosTheta3(t, 1.0, px, py, pz) == 1.0;
  }

  /** A target at distance sqrt(18) from the shoulder, such as (3, 0, 3), is flagged and yields nothing. */
  lemma FarTargetYieldsNothing(t: Numerics, limits: bool)
    requires SqrtSquares(t)
    ensures Solve(t, 3.0, 0.0, 3.0, limits).unreachable
    ensures Solve(t, 3.0, 0.0, 3.0, limits).valid == [] && Solve(t, 3.0, 0.0, 3.0, limits).invalid == []
  {
    UnreachableBeyondFullReach(t, 3.0, 0.0, 3.0);
    assert 3.0 * 3.0 + 0.0 * 0.0 + 3.0 * 3.0 == 18.0;
    assert Solve(t, 3.0, 0.0, 3.0, true).unreachable;
  }
}

=== FILE: mover.dfy ===
/**
 * The decision logic of the end-effector mover node, as a pure state
 * transition. A goal message records the target and the requested elbow
 * policy, asks the inverse kinematics for limit-respecting solutions and
 * commands the first valid one whose configuration label equals the policy;
 * only then is a goal marker published and the goal marker counter advanced.
 * A position message records the measured position and publishes an
 * actual-position marker from a separate counter.
 *
 * Joint motion and marker publication are not performed here: a `Reaction`
 * says which joint triple would be commanded and which marker published.
 */
module EndEffectorMover {
  import opened Wrappers
  import IK = InverseKinematics

  datatype Point = Point(x: real, y: real, z: real)

  /** A joint-space command `(theta1, theta2, theta3)`. */
  datatype Joints = Joints(theta1: real, theta2: real, theta3: real)

  datatype MoverState = MoverState(
    goalMarkerIndex: nat,
    actualMarkerIndex: nat,
    currentGoal: Option<Point>,
    currentPosition: Option<Point>,
    elbowConfig: string)

  /**
   * Which callback published a marker. The publisher itself receives only
   * the position and the index, so the kind is a label of the model: both
   * counters start at zero and the two kinds reuse the same indices.
   */
  datatype MarkerKind = GoalMarker | ActualMarker

  datatype Marker = Marker(kind: MarkerKind, at: Point, index: nat)

  /** A goal command: the target and the requested configuration label. */
  datatype GoalMsg = GoalMsg(target: Point, elbowPolicy: string)

  /** What one callback does: the new state, the joint command sent and the marker published, if any. */
  datatype Reaction = Reaction(state: MoverState, command: Option<Joints>, marker: Option<Marker>)

  /** The values the constructor assigns: both counters zero, no goal or position, policy `"plus"`. */
  function InitialState(): (s: MoverState)
    ensures s.goalMarkerIndex == 0 && s.actualMarkerIndex == 0
    ensures s.currentGoal.None? && s.currentPosition.None?
    ensures !IK.IsConfigLabel(s.elbowConfig)
  {
    MoverState(0, 0, None, None, "plus")
  }

  function JointsOf(s: IK.Solution): Joints {
    Joints(s.theta1, s.theta2, s.theta3)
  }

  /** The joint limits of the solver, read on a joint triple. */
  predicate JointsWithinLimits(j: Joints) {
    IK.WithinLimits(IK.Solution(j.theta1, j.theta2, j.theta3, ""))
  }

  /** The position of the first solution labelled `policy`, if any. */
  function FirstMatching(sols: seq<IK.Solution>, policy: string): (r: Option<nat>)
    ensures r.Some? ==> r.value < |sols| && sols[r.value].config == policy
  {
    if |sols| == 0 then None
    else if sols[0].config == policy then Some(0)
    else match FirstMatching(sols[1..], policy)
      case None => None
      case Some(k) => Some(k + 1)
  }

  /** `FirstMatching` finds the first match, and finds nothing only when nothing matches. */
  lemma {:induction false} FirstMatchingIsFirst(sols: seq<IK.Solution>, policy: string)
    ensures var r := FirstMatching(sols, policy);
      r.Some? ==> forall k :: 0 <= k < r.value ==> sols[k].config != policy
    ensures FirstMatching(sols, policy).None? ==> forall k :: 0 <= k < |sols| ==> sols[k].config != policy
  {
    if |sols| > 0 && sols[0].config != policy {
      FirstMatchingIsFirst(sols[1..], policy);
    }
  }

  /**
   * The decision `goal_callback` takes once the solver has answered: the
   * target and policy are stored whatever happens; a command is sent, and a
   * goal marker with the current index published, exactly when the answer
   * is reachable and some `valid` solution carries the requested label; only
   * then does the goal counter advance. `invalid` is never looked at.
   */
  function GoalDecision(s: MoverState, msg: GoalMsg, ik: IK.IKResult): (r: Reaction)
    ensures r.state.currentGoal == Some(msg.target) && r.state.elbowConfig == msg.elbowPolicy
    ensures r.state.actualMarkerIndex == s.actualMarkerIndex && r.state.currentPosition == s.currentPosition
    ensures r.command.Some? <==> r.marker.Some?
    ensures r.state.goalMarkerIndex == if r.command.Some? then s.goalMarkerIndex + 1 else s.goalMarkerIndex
    ensures r.marker.Some? ==> r.marker.value == Marker(GoalMarker, msg.target, s.goalMarkerIndex)
    ensures ik.unreachable ==> r.command.None?
  {
    var stored := s.(currentGoal := Some(msg.target), elbowConfig := msg.elbowPolicy);
    if ik.unreachable then Reaction(stored, None, None)
    else match FirstMatching(ik.valid, msg.elbowPolicy)
      case None => Reaction(stored, None, None)
      case Some(k) =>
        var sol := ik.valid[k];
        Reaction(stored.(goalMarkerIndex := s.goalMarkerIndex + 1), Some(JointsOf(sol)),
                 Some(Marker(GoalMarker, msg.target, s.goalMarkerIndex)))
  }

  /** The solver exactly as `goal_callback` calls it: on the target, with the joint limits on. */
  function Solver(t: IK.Numerics): Point -> IK.IKResult {
    (p: Point) => IK.Solve(t, p.x, p.y, p.z, true)
  }

  /**
   * `goal_callback`. Nothing is commanded for an unreachable target or for
   * a policy that is not a configuration label, and whatever is commanded
   * respects the joint limits.
   */
  function GoalCallback(t: IK.Numerics, s: MoverState, msg: GoalMsg): (r: Reaction)
    ensures r == GoalDecision(s, msg, Solver(t)(msg.target))
    ensures IK.Solve(t, msg.target.x, msg.target.y, msg.target.z, true).unreachable ==> r.command.None?
    ensures r.command.Some? ==> JointsWithinLimits(r.command.value)
    ensures !IK.IsConfigLabel(msg.elbowPolicy) ==> r.command.None?
  {
    var ik := IK.Solve(t, msg.target.x, msg.target.y, msg.target.z, true);
    IK.SolveSorted(t, msg.target.x, msg.target.y, msg.target.z);
    IK.SolveLabelled(t, msg.target.x, msg.target.y, msg.target.z, true);
    DecisionWithinLimits(s, msg, ik);
    DecisionNeedsLabel(s, msg, ik);
    GoalDecision(s, msg, ik)
  }

  /**
   * The commanded triple is that of the first `valid` solution with the
   * requested label, and a command is sent exactly when the answer is
   * reachable and such a solution exists.
   */
  lemma DecisionPicksFirstMatch(s: MoverState, msg: GoalMsg, ik: IK.IKResult)
    ensures GoalDecision(s, msg, ik).command.Some? <==>
      !ik.unreachable && exists k :: 0 <= k < |ik.valid| && ik.valid[k].config == msg.elbowPolicy
    ensures GoalDecision(s, msg, ik).command.Some? ==>
      exists k :: 0 <= k < |ik.valid| && ik.valid[k].config == msg.elbowPolicy
        && (forall j :: 0 <= j < k ==> ik.valid[j].config != msg.elbowPolicy)
        && GoalDecision(s, msg, ik).command.value == JointsOf(ik.valid[k])
  {
    var m := FirstMatching(ik.valid, msg.elbowPolicy);
    FirstMatchingIsFirst(ik.valid, msg.elbowPolicy);
    if !ik.unreachable && m.Some? {
      var k := m.value;
      assert GoalDecision(s, msg, ik).command.value == JointsOf(ik.valid[k]);
    }
  }

  /** With a solver answer whose `valid` entries all respect the limits, so does the command. */
  lemma DecisionWithinLimits(s: MoverState, msg: GoalMsg, ik: IK.IKResult)
    requires forall k :: 0 <= k < |ik.valid| ==> IK.WithinLimits(ik.valid[k])
    ensures GoalDecision(s, msg, ik).command.Some? ==> JointsWithinLimits(GoalDecision(s, msg, ik).command.value)
  {
    DecisionPicksFirstMatch(s, msg, ik);
  }

  /** With a solver answer whose `valid` entries all carry configuration labels, any other policy moves nothing. */
  lemma DecisionNeedsLabel(s: MoverState, msg: GoalMsg, ik: IK.IKResult)
    requires forall k :: 0 <= k < |ik.valid| ==> IK.IsConfigLabel(ik.valid[k].config)
    ensures !IK.IsConfigLabel(msg.elbowPolicy) ==> GoalDecision(s, msg, ik).command.None?
  {
    DecisionPicksFirstMatch(s, msg, ik);
  }

  /**
   * `position_callback`: the measured position is stored and an
   * actual-position marker with the current index is published, whatever
   * the goal state; nothing is commanded and the goal side is untouched.
   */
  function PositionCallback(s: MoverState, p: Point): (r: Reaction)
    ensures r.state.currentPosition == Some(p)
    ensures r.state.actualMarkerIndex == s.actualMarkerIndex + 1
    ensures r.state.goalMarkerIndex == s.goalMarkerIndex
    ensures r.state.currentGoal == s.currentGoal && r.state.elbowConfig == s.elbowConfig
    ensures r.command.None?
    ensures r.marker == Some(Marker(ActualMarker, p, s.actualMarkerIndex))
  {
    Reaction(s.(currentPosition := Some(p), actualMarkerIndex := s.actualMarkerIndex + 1), None,
             Some(Marker(ActualMarker, p, s.actualMarkerIndex)))
  }

  // ---------------------------------------------------------------------
  // Sequences of messages

  datatype Event = GoalEvent(msg: GoalMsg) | PositionEvent(at: Point)

  /**
   * One callback. Seen from its counters: a goal message numbers at most
   * one goal marker, with the goal index it found, and a position message
   * exactly one actual-position marker, with the actual index it found.
   */
  function Step(solve: Point -> IK.IKResult, s: MoverState, e: Event): (r: Reaction)
    ensures r.state.goalMarkerIndex == s.goalMarkerIndex + |OptionList(r.command)|
    ensures r.state.actualMarkerIndex == s.actualMarkerIndex + Ticks(e)
    ensures IndicesOf(OptionList(r.marker), GoalMarker) == Consecutive(s.goalMarkerIndex, |OptionList(r.command)|)
    ensures IndicesOf(OptionList(r.marker), ActualMarker)
         == Consecutive(s.actualMarkerIndex, Ticks(e))
  {
    match e
    case GoalEvent(msg) => GoalDecision(s, msg, solve(msg.target))
    case PositionEvent(p) => PositionCallback(s, p)
  }

  function OptionList<T>(o: Option<T>): seq<T> {
    match o
    case None => []
    case Some(v) => [v]
  }

  /** Everything a run of callbacks leaves behind: the final state, the markers and the commands, in order. */
  datatype Trace = Trace(state: MoverState, markers: seq<Marker>, commands: seq<Joints>)

  /** The callbacks run on `events` in order, the solver answering goal messages. */
  function Run(solve: Point -> IK.IKResult, s: MoverState, events: seq<Event>): Trace
    decreases |events|
  {
    if |events| == 0 then Trace(s, [], [])
    else
      var r := Step(solve, s, events[0]);
      var rest := Run(solve, r.state, events[1..]);
      Trace(rest.state, OptionList(r.marker) + rest.markers, OptionList(r.command) + rest.commands)
  }

  /** The indices of the markers of one kind, in publication order. */
  function IndicesOf(ms: seq<Marker>, kind: MarkerKind): seq<nat> {
    if |ms| == 0 then []
    else (if ms[0].kind == kind then [ms[0].index] else []) + IndicesOf(ms[1..], kind)
  }

  /** How many actual-position markers an event publishes: one per position message. */
  function Ticks(e: Event): nat {
    if e.PositionEvent? then 1 else 0
  }

  function PositionCount(events: seq<Event>): nat {
    if |events| == 0 then 0 else Ticks(events[0]) + PositionCount(events[1..])
  }

  /** `n` consecutive numbers starting at `from`. */
  function Consecutive(from: nat, n: nat): seq<nat>
    decreases n
  {
    if n == 0 then [] else [from] + Consecutive(from + 1, n - 1)
  }

  lemma {:induction false} ConsecutiveAppend(from: nat, n: nat, m: nat)
    ensures Consecutive(from, n) + Consecutive(from + n, m) == Consecutive(from, n + m)
    decreases n
  {
    if n == 0 {
      assert Consecutive(from, 0) == [];
    } else {
      var tail := Consecutive(from + 1, n - 1);
      ConsecutiveAppend(from + 1, n - 1, m);
      assert from + 1 + (n - 1) == from + n;
      assert Consecutive(from, n) == [from] + tail;
      assert Consecutive(from, n + m) == [from] + Consecutive(from + 1, n - 1 + m);
      assert [from] + tail + Consecutive(from + n, m) == [from] + (tail + Consecutive(from + n, m));
    }
  }

  lemma JoinConsecutive(here: seq<nat>, later: seq<nat>, from: nat, n: nat, mid: nat, m: nat)
    requires here == Consecutive(from, n) && mid == from + n && later == Consecutive(mid, m)
    ensures here + later == Consecutive(from, n + m)
  {
    ConsecutiveAppend(from, n, m);
  }

  /** `Consecutive` is what its name says: the `i`-th entry is `from + i`. */
  lemma {:induction false} ConsecutiveEntries(from: nat, n: nat)
    ensures |Consecutive(from, n)| == n
    ensures forall i :: 0 <= i < n ==> Consecutive(from, n)[i] == from + i
    decreases n
  {
    if n > 0 {
      ConsecutiveEntries(from + 1, n - 1);
    }
  }

  lemma IndicesOfAppend(a: seq<Marker>, b: seq<Marker>, kind: MarkerKind)
    ensures IndicesOf(a + b, kind) == IndicesOf(a, kind) + IndicesOf(b, kind)
    decreases |a|
  {
    if |a| > 0 {
      assert (a + b)[1..] == a[1..] + b;
      IndicesOfAppend(a[1..], b, kind);
    } else {
      assert a + b == b;
    }
  }

  // Over any run of callbacks each callback's markers carry consecutive
  // indices, so one callback never repeats an index of its own; the two
  // callbacks count independently from zero and so do repeat each other's.

  /** The unfolding of `Run` by one callback. */
  lemma RunCons(solve: Point -> IK.IKResult, s: MoverState, events: seq<Event>)
    requires |events| > 0
    ensures var r := Step(solve, s, events[0]);
      var rest := Run(solve, r.state, events[1..]);
      Run(solve, s, events) == Trace(rest.state, OptionList(r.marker) + rest.markers, OptionList(r.command) + rest.commands)
  {
  }

  /** Goal markers are numbered consecutively from the starting goal index, one per command. */
  lemma {:induction false} RunGoalMarkers(solve: Point -> IK.IKResult, s: MoverState, events: seq<Event>)
    ensures Run(solve, s, events).state.goalMarkerIndex == s.goalMarkerIndex + |Run(solve, s, events).commands|
    ensures IndicesOf(Run(solve, s, events).markers, GoalMarker) == Consecutive(s.goalMarkerIndex, |Run(solve, s, events).commands|)
    decreases |events|
  {
    if |events| > 0 {
      var r := Step(solve, s, events[0]);
      var rest := Run(solve, r.state, events[1..]);
      RunCons(solve, s, events);
      RunGoalMarkers(solve, r.state, events[1..]);
      IndicesOfAppend(OptionList(r.marker), rest.markers, GoalMarker);
      var g := |OptionList(r.command)|;
      var here := IndicesOf(OptionList(r.marker), GoalMarker);
      var later := IndicesOf(rest.markers, GoalMarker);
      assert here == Consecutive(s.goalMarkerIndex, g);
      assert later == Consecutive(r.state.goalMarkerIndex, |rest.commands|);
      assert r.state.goalMarkerIndex == s.goalMarkerIndex + g;
      JoinConsecutive(here, later, s.goalMarkerIndex, g, r.state.goalMarkerIndex, |rest.commands|);
    }
  }

  /** The actual-position counter advances once per position message. */
  lemma {:induction false} RunActualCount(solve: Point -> IK.IKResult, s: MoverState, events: seq<Event>)
    ensures Run(solve, s, events).state.actualMarkerIndex == s.actualMarkerIndex + PositionCount(events)
    decreases |events|
  {
    if |events| > 0 {
      var r := Step(solve, s, events[0]);
      RunCons(solve, s, events);
      RunActualCount(solve, r.state, events[1..]);
    }
  }

  /** Actual-position markers are numbered consecutively from the starting actual index. */
  lemma {:induction false} RunActualIndices(solve: Point -> IK.IKResult, s: MoverState, events: seq<Event>)
    ensures IndicesOf(Run(solve, s, events).markers, ActualMarker) == Consecutive(s.actualMarkerIndex, PositionCount(events))
    decreases |events|
  {
    if |events| > 0 {
      var r := Step(solve, s, events[0]);
      var rest := Run(solve, r.state, events[1..]);
      RunCons(solve, s, events);
      RunActualIndices(solve, r.state, events[1..]);
      assert PositionCount(events) == Ticks(events[0]) + PositionCount(events[1..]);
      ActualMarkersJoin(s.actualMarkerIndex, Ticks(events[0]), r, rest.markers, PositionCount(events[1..]));
    } else {
      assert PositionCount(events) == 0;
    }
  }

  /** The inductive step of `RunActualIndices`, with the callback and the rest of the run as plain values. */
  lemma ActualMarkersJoin(from: nat, a: nat, r: Reaction, later: seq<Marker>, n: nat)
    requires r.state.actualMarkerIndex == from + a
    requires IndicesOf(OptionList(r.marker), ActualMarker) == Consecutive(from, a)
    requires IndicesOf(later, ActualMarker) == Consecutive(r.state.actualMarkerIndex, n)
    ensures IndicesOf(OptionList(r.marker) + later, ActualMarker) == Consecutive(from, a + n)
  {
    IndicesOfAppend(OptionList(r.marker), later, ActualMarker);
    ConsecutiveAppend(from, a, n);
  }

  /**
   * The two counters do not keep the markers apart: from the initial
   * state, a commanded goal followed by a position message publishes two
   * markers that both carry index 0.
   */
  lemma MarkerIndicesCollide(solve: Point -> IK.IKResult, target: Point, policy: string, p: Point)
    requires !solve(target).unreachable && |solve(target).valid| > 0 && solve(target).valid[0].config == policy
    ensures Run(solve, InitialState(), [GoalEvent(GoalMsg(target, policy)), PositionEvent(p)]).markers
         == [Marker(GoalMarker, target, 0), Marker(ActualMarker, p, 0)]
  {
    var events := [GoalEvent(GoalMsg(target, policy)), PositionEvent(p)];
    var r := Step(solve, InitialState(), events[0]);
    assert FirstMatching(solve(target).valid, policy) == Some(0);
    assert r.marker == Some(Marker(GoalMarker, target, 0));
    assert r.state.actualMarkerIndex == 0;
    RunCons(solve, InitialState(), events);
    assert events[1..] == [PositionEvent(p)];
    assert events[1..][1..] == [];
    RunCons(solve, r.state, events[1..]);
  }

  /** A solver whose `valid` answers all respect the joint limits. */
  ghost predicate LimitsRespected(solve: Point -> IK.IKResult) {
    forall p, k :: 0 <= k < |solve(p).valid| ==> IK.WithinLimits(solve(p).valid[k])
  }

  /** The node's own solver is one. */
  lemma SolverRespectsLimits(t: IK.Numerics)
    ensures LimitsRespected(Solver(t))
  {
    forall p: Point
      ensures forall k :: 0 <= k < |Solver(t)(p).valid| ==> IK.WithinLimits(Solver(t)(p).valid[k])
    {
      IK.SolveSorted(t, p.x, p.y, p.z);
    }
  }

  /** Each goal step of a run is the node's `goal_callback`. */
  lemma StepIsCallback(t: IK.Numerics, s: MoverState, msg: GoalMsg)
    ensures Step(Solver(t), s, GoalEvent(msg)) == GoalCallback(t, s, msg)
  {
  }

  /** A single callback commands nothing outside the limits when the solver respects them. */
  lemma StepWithinLimits(solve: Point -> IK.IKResult, s: MoverState, e: Event)
    requires LimitsRespected(solve)
    ensures Step(solve, s, e).command.Some? ==> JointsWithinLimits(Step(solve, s, e).command.value)
  {
    if e.GoalEvent? {
      var ik := solve(e.msg.target);
      DecisionWithinLimits(s, e.msg, ik);
    }
  }

  /** Every command of a run respects the joint limits, whatever the messages. */
  lemma {:induction false} RunCommandsWithinLimits(solve: Point -> IK.IKResult, s: MoverState, events: seq<Event>)
    requires LimitsRespected(solve)
    ensures forall j :: j in Run(solve, s, events).commands ==> JointsWithinLimits(j)
    decreases |events|
  {
    if |events| > 0 {
      var r := Step(solve, s, events[0]);
      RunCons(solve, s, events);
      RunCommandsWithinLimits(solve, r.state, events[1..]);
      StepWithinLimits(solve, s, events[0]);
    }
  }

  /**
   * The stored policy is overwritten before anything reads it: the decision
   * on a goal is the same whatever policy the state held before.
   */
  lemma GoalIgnoresStoredPolicy(s: MoverState, msg: GoalMsg, ik: IK.IKResult, prior: string)
    ensures GoalDecision(s.(elbowConfig := prior), msg, ik) == GoalDecision(s, msg, ik)
  {
  }

  /** The construction-time policy `"plus"` names no configuration, so it could never select a solution. */
  lemma DefaultPolicyMatchesNothing(t: IK.Numerics, s: MoverState, target: Point)
    ensures GoalCallback(t, s, GoalMsg(target, InitialState().elbowConfig)).command.None?
  {
  }
}

=== FILE: symbolic.dfy ===
/**
 * A small symbolic algebra standing in for the sympy expressions the matrix
 * generator manipulates: constants, named symbols, sums, products, negation
 * and sin/cos. Meaning is given by `Eval` under an interpretation that fixes
 * a value for every symbol and treats sin and cos as arbitrary real
 * functions, so nothing here relies on trigonometric identities.
 *
 * `Plus`, `Times` and `Negate` fold the trivial cases (adding 0, multiplying
 * by 0 or 1, negating a constant) the way sympy canonicalises on
 * construction; that is what keeps the bottom row of a product of DH
 * matrices literally `[0, 0, 0, 1]`.
 */
module Symbolic {

  datatype Expr =
    | Const(c: real)
    | Var(name: string)
    | Add(left: Expr, right: Expr)
    | Mul(left: Expr, right: Expr)
    | Neg(arg: Expr)
    | Sin(arg: Expr)
    | Cos(arg: Expr)

  /** Values for the symbols, and the two trigonometric functions left uninterpreted. */
  datatype Interp = Interp(value: string -> real, sin: real -> real, cos: real -> real)

  function Eval(e: Expr, env: Interp): real {
    match e
    case Const(c) => c
    case Var(x) => env.value(x)
    case Add(a, b) => Eval(a, env) + Eval(b, env)
    case Mul(a, b) => Eval(a, env) * Eval(b, env)
    case Neg(a) => -Eval(a, env)
    case Sin(a) => env.sin(Eval(a, env))
    case Cos(a) => env.cos(Eval(a, env))
  }

  predicate IsConst(e: Expr, c: real) {
    e.Const? && e.c == c
  }

  /** Sum with the additive unit folded away. */
  function Plus(a: Expr, b: Expr): (s: Expr)
    ensures IsConst(a, 0.0) ==> s == b
  {
    if IsConst(a, 0.0) then b
    else if IsConst(b, 0.0) then a
    else Add(a, b)
  }

  /** Product with zero and one folded away. */
  function Times(a: Expr, b: Expr): (p: Expr)
    ensures IsConst(a, 0.0) || IsConst(b, 0.0) ==> p == Const(0.0)
    ensures IsConst(a, 1.0) ==> p == b
  {
    if IsConst(a, 0.0) || IsConst(b, 0.0) then Const(0.0)
    else if IsConst(a, 1.0) then b
    else if IsConst(b, 1.0) then a
    else Mul(a, b)
  }

  /** Negation, computed outright on a constant. */
  function Negate(a: Expr): Expr {
    if a.Const? then Const(-a.c) else Neg(a)
  }

  /** The folding done by `Plus`, `Times` and `Negate` never changes the value. */
  lemma PlusSound(a: Expr, b: Expr, env: Interp)
    ensures Eval(Plus(a, b), env) == Eval(a, env) + Eval(b, env)
  {
  }

  lemma TimesSound(a: Expr, b: Expr, env: Interp)
    ensures Eval(Times(a, b), env) == Eval(a, env) * Eval(b, env)
  {
  }

  lemma NegateSound(a: Expr, env: Interp)
    ensures Eval(Negate(a), env) == -Eval(a, env)
  {
  }

  /** `env` with the symbols bound by `b` given the values of their replacements under `env`. */
  function Extend(env: Interp, b: map<string, Expr>): Interp {
    env.(value := x => if x in b then Eval(b[x], env) else env.value(x))
  }

  /**
   * Simultaneous substitution of the symbols in `b`, re-canonicalising every
   * rebuilt node. Evaluating the result equals evaluating the original with
   * the substituted symbols bound to their replacements' values.
   */
  function Subst(e: Expr, b: map<string, Expr>): Expr {
    match e
    case Const(c) => e
    case Var(x) => if x in b then b[x] else e
    case Add(l, r) => Plus(Subst(l, b), Subst(r, b))
    case Mul(l, r) => Times(Subst(l, b), Subst(r, b))
    case Neg(a) => Negate(Subst(a, b))
    case Sin(a) => Sin(Subst(a, b))
    case Cos(a) => Cos(Subst(a, b))
  }

  lemma {:induction false} SubstSound(e: Expr, b: map<string, Expr>, env: Interp)
    ensures Eval(Subst(e, b), env) == Eval(e, Extend(env, b))
  {
    match e
    case Const(_) =>
    case Var(_) =>
    case Add(l, r) =>
      SubstSound(l, b, env); SubstSound(r, b, env);
      PlusSound(Subst(l, b), Subst(r, b), env);
    case Mul(l, r) =>
      SubstSound(l, b, env); SubstSound(r, b, env);
      TimesSound(Subst(l, b), Subst(r, b), env);
    case Neg(a) =>
      SubstSound(a, b, env);
      NegateSound(Subst(a, b), env);
    case Sin(a) => SubstSound(a, b, env);
    case Cos(a) => SubstSound(a, b, env);
  }

  predicate IsSquare4<T>(m: seq<seq<T>>) {
    |m| == 4 && forall i :: 0 <= i < |m| ==> |m[i]| == 4
  }

  /** A 4x4 matrix of symbolic entries, row-major. */
  type Matrix = m: seq<seq<Expr>> | IsSquare4(m)
    witness [[Const(0.0), Const(0.0), Const(0.0), Const(0.0)],
             [Const(0.0), Const(0.0), Const(0.0), Const(0.0)],
             [Const(0.0), Const(0.0), Const(0.0), Const(0.0)],
             [Const(0.0), Const(0.0), Const(0.0), Const(0.0)]]

  function Row(a: Expr, b: Expr, c: Expr, d: Expr): seq<Expr> {
    [a, b, c, d]
  }

  /** The homogeneous bottom row `[0, 0, 0, 1]`. */
  function BottomRow(): seq<Expr> {
    Row(Const(0.0), Const(0.0), Const(0.0), Const(1.0))
  }

  predicate Homogeneous(m: Matrix) {
    m[3] == BottomRow()
  }

  function Dot(a: Matrix, b: Matrix, i: nat, j: nat): Expr
    requires i < 4 && j < 4
  {
    Plus(Plus(Plus(Times(a[i][0], b[0][j]), Times(a[i][1], b[1][j])),
              Times(a[i][2], b[2][j])),
         Times(a[i][3], b[3][j]))
  }

  function Sum4(w: real, x: real, y: real, z: real): real {
    w + x + y + z
  }

  /** Row `i` of `a` times column `j` of `b`, written out with no folding at all. */
  function NaiveDot(a: Matrix, b: Matrix, i: nat, j: nat): Expr
    requires i < 4 && j < 4
  {
    Add(Add(Add(Mul(a[i][0], b[0][j]), Mul(a[i][1], b[1][j])), Mul(a[i][2], b[2][j])), Mul(a[i][3], b[3][j]))
  }

  /**
   * Symbolic matrix product, sympy's `a * b`. Every entry evaluates to the
   * row-by-column sum of the factors' values, and a product of homogeneous
   * transforms is again homogeneous, syntactically.
   */
  function MatMul(a: Matrix, b: Matrix): (p: Matrix)
    ensures forall i, j, env :: 0 <= i < 4 && 0 <= j < 4 ==> Eval(p[i][j], env) == Eval(NaiveDot(a, b, i, j), env)
    ensures Homogeneous(b) && Homogeneous(a) ==> Homogeneous(p)
  {
    var p: Matrix := seq(4, i requires 0 <= i < 4 => seq(4, j requires 0 <= j < 4 => Dot(a, b, i, j)));
    forall i, j, env | 0 <= i < 4 && 0 <= j < 4
      ensures Eval(p[i][j], env) == Eval(NaiveDot(a, b, i, j), env)
    {
      DotSound(a, b, i, j, env);
    }
    if Homogeneous(a) && Homogeneous(b) then
      assert forall j :: 0 <= j < 4 ==> p[3][j] == b[3][j];
      p
    else
      p
  }

  lemma DotSound(a: Matrix, b: Matrix, i: nat, j: nat, env: Interp)
    requires i < 4 && j < 4
    ensures Eval(Dot(a, b, i, j), env) == Eval(NaiveDot(a, b, i, j), env)
  {
    ProductSumSound(a[i][0], b[0][j], a[i][1], b[1][j], a[i][2], b[2][j], a[i][3], b[3][j], env);
  }

  lemma ProductSumSound(x0: Expr, y0: Expr, x1: Expr, y1: Expr, x2: Expr, y2: Expr, x3: Expr, y3: Expr, env: Interp)
    ensures Eval(Plus(Plus(Plus(Times(x0, y0), Times(x1, y1)), Times(x2, y2)), Times(x3, y3)), env)
         == Eval(Add(Add(Add(Mul(x0, y0), Mul(x1, y1)), Mul(x2, y2)), Mul(x3, y3)), env)
  {
    TimesAsMul(x0, y0, env);
    TimesAsMul(x1, y1, env);
    TimesAsMul(x2, y2, env);
    TimesAsMul(x3, y3, env);
    Sum4Sound(Times(x0, y0), Times(x1, y1), Times(x2, y2), Times(x3, y3), env);
    AddChain(Mul(x0, y0), Mul(x1, y1), Mul(x2, y2), Mul(x3, y3), env);
  }

  lemma TimesAsMul(x: Expr, y: Expr, env: Interp)
    ensures Eval(Times(x, y), env) == Eval(Mul(x, y), env)
  {
    TimesSound(x, y, env);
  }

  lemma AddChain(t0: Expr, t1: Expr, t2: Expr, t3: Expr, env: Interp)
    ensures Eval(Add(Add(Add(t0, t1), t2), t3), env) == Sum4(Eval(t0, env), Eval(t1, env), Eval(t2, env), Eval(t3, env))
  {
    assert Eval(Add(t0, t1), env) == Eval(t0, env) + Eval(t1, env);
    assert Eval(Add(Add(t0, t1), t2), env) == Eval(Add(t0, t1), env) + Eval(t2, env);
  }

  lemma Sum4Sound(t0: Expr, t1: Expr, t2: Expr, t3: Expr, env: Interp)
    ensures Eval(Plus(Plus(Plus(t0, t1), t2), t3), env) == Sum4(Eval(t0, env), Eval(t1, env), Eval(t2, env), Eval(t3, env))
  {
    PlusSound(t0, t1, env);
    PlusSound(Plus(t0, t1), t2, env);
    PlusSound(Plus(Plus(t0, t1), t2), t3, env);
  }

  /** Left-to-right product of a non-empty list, Python's `reduce(lambda a, b: a * b, ms)`. */
  function Product(ms: seq<Matrix>): Matrix
    requires |ms| > 0
  {
    if |ms| == 1 then ms[0] else MatMul(Product(ms[..|ms| - 1]), ms[|ms| - 1])
  }

  /** A product of homogeneous transforms keeps the homogeneous bottom row. */
  lemma {:induction false} ProductHomogeneous(ms: seq<Matrix>)
    requires |ms| > 0
    requires forall i :: 0 <= i < |ms| ==> Homogeneous(ms[i])
    ensures Homogeneous(Product(ms))
  {
    if |ms| > 1 {
      ProductHomogeneous(ms[..|ms| - 1]);
    }
  }

  /** Appending a factor multiplies it on the right of the running product. */
  lemma ProductSnoc(ms: seq<Matrix>, m: Matrix)
    requires |ms| > 0
    ensures Product(ms + [m]) == MatMul(Product(ms), m)
  {
    assert (ms + [m])[..|ms|] == ms;
  }
}

=== FILE: wrappers.dfy ===
/** Optional values: Python's `None` versus a present value. */
module Wrappers {

  datatype Option<+T> = None | Some(value: T) {

    /** Returns the present value, or `default` when there is none. */
    function GetOr(default: T): T {
      match this
      case Some(v) => v
      case None => default
    }
  }
}
